=== FILE: README.md ===
# Personal planner — task list model

A Dafny model of the task-list core of a small browser planner. The planner
has two windows, and each keeps its own copy of the list code:

- `app.js` is the main window. It has a version-4 payload under the
  localStorage key `planner.tasks.v4`. Its tasks have hour estimates, its
  palette has six colours, and task text is capped at 600 characters.
- `popout.js` is the fallback pop-out window. It has a version-1 payload
  under `planner.tasks.v1`. It has five colours, no cap and no hours. An
  edit to blank text deletes the task. It has a search filter and a
  `storage` listener on its own key, so it adopts saves made by another
  pop-out window. The main window saves under the other key and has no such
  listener, so its saves never reach a pop-out this way
  (`PopoutLaws.MainWindowSavesIgnored`), even though the pop-out's opening
  comment describes the sync as running between the two windows.

The two are modelled as separate modules, `Planner` and `Popout`. They are
deliberately not reconciled, because the source does not reconcile them
either: they even use different storage keys.

Modules:

- `Seqs`: `Option`, order-preserving `Filter`, `Map`, subsequences,
  distinctness, and the counting and permutation lemmas.
- `Text`: the JavaScript string operations the planner uses. These are
  `trim` over the ECMAScript whitespace set, `replace(/\s+/g, " ")`,
  `slice(0, n)`, `toLowerCase` and `includes`.
- `Js`: the values `JSON.parse` yields, property lookup, truthiness, and the
  `String(v)` and `+v` coercions, including the TypeError they raise on an
  object that carries its own `toString` property.
- `IdOrder`: rebuilding a list from the ids a drag left on screen. Both
  windows share this step.
- `Planner` and `PlannerLaws`: the main window's loader, its saving and its
  list operations, and the laws relating them.
- `Popout` and `PopoutLaws`: the same for the pop-out window, including the
  filter and the drag commit under an active filter.

Every operation is a pure function from the old list to the new one. Several
things are parameters rather than ambient state:

- the clock, as `now`;
- the id generator, as `id`, or `uid(k)` for the k-th loaded entry;
- the engine's number and text conversions, as `Host`.

## Model

| member | source | states |
|---|---|---|
| Planner.ParseTag | app.js:40 | A stored tag that names one of the six colours is that colour. Any other value, including a non-string, is "none". |
| Planner.Hours | app.js:41 | The estimate is never negative. A finite non-negative number is kept. NaN, the infinities and negative numbers become 0. |
| Planner.FromEntry | app.js:37-43 | A kept entry whose `hours` converts becomes a task with the stored id. Its text is the stored text's prefix of length min(length, 600). The task is within the field bounds. What an unusable `hours` loads as is stated by `PlannerLaws.LoadedHoursDefault`. |
| PlannerLaws.LoadedHoursDefault | app.js:41 | An `hours` that is missing, `null`, `false`, an infinite or NaN number, or text without a digit (under `Js.DigitlessIsNotFinite`) loads as 0. An `hours` of `true` loads as 1, because `+true` is 1. |
| Planner.NormalizeEntries | app.js:34-44 | On an array where no kept entry's `hours` throws, one pass agrees with `filter` then `map`. The k-th result is the normalised k-th entry with a string id and string text. |
| Planner.Deserialize | app.js:29-48 | No list exactly when the payload does not parse, `tasks` is not an array, or some entry with a string id and text has an `hours` whose `+` conversion throws (an object with its own `toString`, or an array holding one). Otherwise the list is the kept entries in stored order, each normalised and within the field bounds. |
| Planner.Encode | app.js:25-27 | The saved envelope carries a task array with one record per task. |
| PlannerLaws.TaskValueLoads | app.js:25-27 | A saved task record is kept by the loader. It loads back as the same task. |
| PlannerLaws.RoundTrip | app.js:25-48 | Saving a list of in-bounds tasks with non-empty timestamps and loading the payload gives the same list. |
| PlannerLaws.DeserializeKeepsAdmissible | app.js:33-44 | A task array whose entries all have a string id, a string text and an `hours` that converts loses no entry. |
| PlannerLaws.ThrowingHoursLosesAll | app.js:41-47 | One entry with a string id and text whose `hours` is an object with its own `toString` makes the whole load fail. |
| Planner.Find | app.js:260 | `tasks.find` by id: no position exactly when no task has the id, otherwise the first task with it. |
| Planner.AddTask | app.js:243-257 | Blank input leaves the list unchanged. Otherwise a new open task goes first, and the rest of the list is unchanged. Its text is the trimmed input cut to 600 characters; it has the default colour, zero hours and both stamps set to now. |
| PlannerLaws.AddTaskKeepsInvariants | app.js:243-257 | Adding keeps the field bounds. It keeps ids unique when the new id is fresh. |
| PlannerLaws.AddThenRemove | app.js:243-301 | Removing a task just added under an unused id gives back the original list. |
| Planner.ToggleDone | app.js:259-266 | An unknown id changes nothing. Otherwise only the first task with the id changes: its done flag flips and it is stamped now. |
| PlannerLaws.ToggleDoneTwice | app.js:259-266 | Toggling twice restores the list except for the second stamp. |
| PlannerLaws.ToggleDoneKeepsInvariants | app.js:259-266 | Toggling keeps the id sequence and the field bounds. |
| Planner.SetTaskTag | app.js:268-275 | An unknown id changes nothing. Otherwise only the first task with the id takes the colour and is stamped now. |
| PlannerLaws.SetTaskTagKeepsInvariants | app.js:268-275 | Recolouring keeps the id sequence and the field bounds. |
| Planner.CleanText | app.js:280 | The committed text is at most 600 characters long. It is empty exactly when the input is all whitespace. |
| Planner.CleanTextShape | app.js:280 | The committed text starts with a visible character and never has two whitespace characters in a row. All its whitespace is plain spaces. It ends in a space only when it is exactly 600 characters long. |
| Planner.CleanTextContent | app.js:280 | The committed text's visible characters are a prefix of the input's visible characters. They are all of them when the input fits the cap. |
| Text.Collapse | app.js:280 | Collapsing keeps the text empty exactly when it was empty, never lengthens it, and keeps whether it starts and whether it ends with whitespace. |
| Text.CollapseWord | app.js:280 | A leading stretch without whitespace passes through collapsing unchanged. |
| Text.CollapseConcat | app.js:280 | Collapsing works piece by piece across a boundary that follows a visible character. |
| Text.CollapseGap | app.js:280 | A non-empty run of whitespace between a visible character and a visible character becomes exactly one space. |
| Planner.CleanTextJoinsWords | app.js:280 | Two words typed with any whitespace run between them commit with exactly one plain space there, up to the cap, so "a b" stays "a b". |
| PlannerLaws.CleanTextMayEndInSpace | app.js:280 | Some input commits a 600-character text ending in a space: `trim` runs before `slice`, so the cap can cut the text just after a space. |
| Planner.UpdateText | app.js:277-285 | An unknown id or an input that is all whitespace changes nothing. Otherwise only the first task with the id takes the cleaned text and is stamped now. |
| PlannerLaws.UpdateTextKeepsInvariants | app.js:277-285 | Editing keeps the id sequence and the field bounds. |
| Planner.SetTaskHours | app.js:287-295 | An unknown id changes nothing. Otherwise only the first task with the id changes: it takes the parsed input as a non-negative estimate and is stamped now. |
| PlannerLaws.SetTaskHoursNonNumeric | app.js:290 | On an engine whose `Number` reads text without a decimal digit as blank (0), an infinity or NaN, as the language defines it, such text ("abc", "", "Infinity") sets the estimate to 0. |
| PlannerLaws.SetTaskHoursKeepsInvariants | app.js:287-295 | Setting hours keeps the id sequence and the field bounds. |
| Planner.RemoveTask | app.js:297-301 | No task with the id remains. Every other task remains as many times as it occurred, in its original order. |
| PlannerLaws.RemoveTaskIdempotent | app.js:297-301 | Removing the same id twice is the same as removing it once. |
| PlannerLaws.RemoveTaskKeepsInvariants | app.js:297-301 | Removing keeps the field bounds and unique ids. |
| Planner.ClearAll | app.js:303-307 | The list becomes empty. |
| Planner.ClearDone | app.js:309-316 | Exactly the open tasks remain, each as many times as it occurred, in their original order. The list keeps its length exactly when no task was done; the source saves only when the length changed. |
| PlannerLaws.ClearDoneIdempotent | app.js:309-316 | Clearing done tasks twice is the same as clearing them once. |
| PlannerLaws.ClearDoneKeepsInvariants | app.js:309-316 | Clearing done tasks keeps the field bounds and unique ids. |
| Planner.CommitDragOrder | app.js:575-577 | The new list's ids are the on-screen ids that some task has, in on-screen order. Each slot holds the task the id map yields for its id, which is the last task with that id, so an id listed twice fills both slots with the same task. Every task in it comes from the old list. |
| PlannerLaws.CommitDragOrderKeepsInvariants | app.js:575-577 | The drag commit keeps the field bounds. It keeps ids unique when the on-screen ids are duplicate-free. |
| PlannerLaws.CommitDragOrderPermutation | app.js:575-577 | When the on-screen ids are exactly the tasks' unique ids, the commit is a permutation of the tasks in on-screen order. |
| IdOrder.Lookup | app.js:576-577 | `new Map(...).get(id)` finds nothing exactly when no task has the id, and otherwise the last task with it. |
| IdOrder.Reorder | app.js:575-577 | The rebuilt list maps to the known on-screen ids in order. Each slot holds the task `Lookup` finds for its id, the last one carrying it. The list takes its tasks from the old list and is no longer than the id list. |
| IdOrder.LookupUnique | app.js:576 | With unique ids, looking up a task's own id finds that task. |
| IdOrder.ReorderMembers | app.js:575-577 | With unique ids, a task is in the rebuilt list exactly when its id is on screen. |
| IdOrder.ReorderDistinct | app.js:575-577 | Duplicate-free on-screen ids give a list without repeated tasks. |
| IdOrder.ReorderPermutation | app.js:575-577 | On-screen ids that permute the unique task ids rebuild a permutation of the tasks in that order. |
| Popout.ParseTag | popout.js:26 | A stored tag naming one of the five colours is that colour. Anything else is "none", including the main window's "green". |
| Popout.StampText | popout.js:27-28 | A non-empty stored string stamp is kept. A falsy one becomes now. |
| Popout.FromEntry | popout.js:22-28 | On an entry the loader does not throw on, the stored id and text are kept when they are strings. A missing or null id becomes a fresh id, and a missing or null text becomes empty. The done flag is the entry's truthiness. |
| Popout.Entries | popout.js:22-28 | There is one task per stored entry, in order. |
| Popout.DropBlank | popout.js:29 | Exactly the tasks that show text remain, each as many times as it occurred, in their original order. |
| Popout.Deserialize | popout.js:18-33 | There is no list exactly when the payload does not parse, or a task array holds an entry the loader throws on. That is a null entry, or an id, a text or a set stamp whose `String` conversion throws. A payload without a task array gives an empty list. Otherwise the list is the entries as tasks with the blank ones dropped, and every task shows text. |
| Popout.Encode | popout.js:15-17 | The saved envelope carries a task array with one record per task. |
| PopoutLaws.TaskValueLoads | popout.js:15-28 | A saved record of a task with non-empty stamps loads back as the same task. |
| PopoutLaws.EncodedEntries | popout.js:15-28 | No saved entry makes the loader throw, and the entries load back as the tasks. |
| PopoutLaws.ThrowingTextLosesAll | popout.js:24-31 | One entry whose text is an object with its own `toString` makes the whole load fail. |
| PopoutLaws.RoundTrip | popout.js:15-33 | Saving a list whose tasks show text and have non-empty stamps, then loading it, gives the same list. |
| Popout.MatchesFilter | popout.js:57-60 | An empty filter accepts every task. Otherwise the task's lower-cased text must contain the trimmed, lower-cased filter. |
| Popout.Visible | popout.js:67 | The rendered tasks are exactly the matching tasks, each as many times as it occurs in the list, in list order. |
| PopoutLaws.BlankFilterAcceptsAll | popout.js:57-60 | A filter of only whitespace accepts every task. |
| Text.LowerOccurs | popout.js:59 | An occurrence of one text inside another survives lower-casing both. |
| PopoutLaws.FilterFindsText | popout.js:57-60 | A task whose text contains the trimmed filter matches it. |
| PopoutLaws.FilterIgnoresTextCase | popout.js:59 | Lower-casing a task's text does not change whether it matches. |
| Popout.Check | popout.js:90-95 | Only the clicked task changes. Its done flag flips and it is stamped now; its other fields are unchanged. |
| PopoutLaws.CheckTwice | popout.js:90-95 | Checking twice restores the list except for the second stamp. |
| PopoutLaws.CheckKeepsInvariants | popout.js:90-95 | Checking keeps the id sequence and keeps every task showing text. |
| Popout.Delete | popout.js:97-101 | No task with the id remains. Every other task remains as many times as it occurred, in its original order. |
| PopoutLaws.DeleteExactlyOne | popout.js:97-101 | With unique ids, deleting a task removes exactly that position. |
| PopoutLaws.DeleteKeepsInvariants | popout.js:97-101 | Deleting keeps every task showing text and keeps ids unique. |
| Popout.CommitEdit | popout.js:109-121 | Blank input deletes the task. Input that trims to the current text changes nothing. Otherwise only that task changes: its text becomes the trimmed input, and its id, flag, colour and creation stamp are kept. When the text changes, it is stamped now. |
| PopoutLaws.CommitEditSettles | popout.js:109-121 | Committing the same non-blank edit twice is the same as committing it once. |
| PopoutLaws.CommitEditKeepsInvariants | popout.js:109-121 | Editing keeps every task showing text and keeps ids unique. |
| Popout.SyncOrderFromDom | popout.js:166-172 | No ids on screen leaves the list unchanged. Otherwise the new list's ids are the on-screen ids that some task has, in on-screen order. Each slot holds the last task with its id, as the id map yields it, and the tasks come from the old list. |
| PopoutLaws.SyncOrderKeepsInvariants | popout.js:166-172 | The drag commit keeps every task showing text. It keeps ids unique when the on-screen ids are duplicate-free. |
| PopoutLaws.HiddenIdNotRendered | popout.js:67-78 | With unique ids, a task the filter hides has no id among the rendered ids. |
| PopoutLaws.FilteredDragDropsHidden | popout.js:166-172 | A drag under a filter that hides a task commits a list without that task. |
| PopoutLaws.FilteredDragExample | popout.js:166-172 | Concretely: for tasks "m" and "b" under the search "m", only the first is on screen. Dragging it commits a one-task list. |
| Popout.SyncOrderKeepingHidden | popout.js:166-172 | The corrected commit is the source's commit followed by every task whose id was not on screen. |
| PopoutLaws.FilteredDragKeepsHidden | popout.js:166-172 | The corrected commit keeps every hidden task. |
| PopoutLaws.KeepingHiddenIsPermutation | popout.js:166-172 | With unique ids and duplicate-free on-screen ids, the corrected commit is a permutation of the list. |
| PopoutLaws.KeepingHiddenAgreesUnfiltered | popout.js:166-172 | With every task on screen, the corrected commit and the source's commit agree. |
| Popout.AddTask | popout.js:174-177 | A new open, uncoloured task with the trimmed text and both stamps set to now goes first. The rest of the list is unchanged. |
| Popout.SubmitAdd | popout.js:192-199 | Blank input leaves the list unchanged. Otherwise the input is added, and the new task shows text. |
| PopoutLaws.SubmitAddKeepsInvariants | popout.js:192-199 | The add form keeps every task showing text. It keeps ids unique when the new id is fresh. |
| Popout.OnStorage | popout.js:210-218 | An event for another key or without text changes nothing. On the task key, a payload that loads replaces the list with what it loads, and one that does not load leaves the list unchanged. So a payload that does not parse, or that has an entry the loader throws on, changes nothing, while a parsed payload without a task array empties the list. A changed list shows text throughout. |
| PopoutLaws.StorageAdoptsSavedList | popout.js:210-218 | A `storage` event carrying a list saved under the pop-out's own key replaces the current list with exactly that list. |
| PopoutLaws.MainWindowSavesIgnored | popout.js:211 | The main window's key differs from the pop-out's, so an event for it leaves the pop-out's list unchanged. |

## Left out

- Rendering, the DOM, drag geometry (`getDragAfterElement`, the pointer ghost and FLIP animation), the pop-out window machinery, themes and status text. They touch no task data. The drag is modelled only by its result: the ids left on screen.
- Storage I/O: the File System Access API, IndexedDB, localStorage and the debounced save. Its `saveInFlight` flag is set but never read, so overlapping writes are not prevented. The model covers the payload a save writes (`Encode`) and what a load does with it (`Deserialize`), not the writes themselves.
- The JSON text layer: `JSON.stringify` and `JSON.parse` are modelled by the value they produce or consume (`Js.Decoded`). The round-trip lemmas therefore assume that parsing a stringified value gives the value back.
- Numbers: doubles are modelled as exact reals plus NaN and the infinities. Decimal conversions between numbers and text are the `Host` parameter. `renderTotal`'s summing of hours is not modelled.
- The clock and the id generator are parameters. One `now` serves a whole call, so the two `nowISO()` calls in one task creation give equal stamps.
- The `UI_KEY` branch of the `storage` listener and the pop-out's `load()` start-up read. The listener's task-key branch is modelled.
- Text lengths count characters, while JavaScript counts UTF-16 code units, so the 600 cap differs for text outside the Basic Multilingual Plane.
- `toLowerCase` is modelled for ASCII and basic Cyrillic capitals (U+0400–U+042F), the scripts of the planner's interface. Other scripts are left unchanged.
- Planner.SetTaskTag: the colour comes from the fixed palette of the controls. The source would store any string it was given.
- Planner.AddTask: the new task's colour, `state.defaultTag`, is likewise taken from the fixed palette. The source would store whatever string that state field held.
- Planner.ToggleDone: lists are values, so no two positions share a task object. In the source, a drag that lists one id twice (`Planner.CommitDragOrder` maps both to the same object) leaves one object at two positions. Toggling it then changes both positions, while the model changes only the first.
- Planner.SetTaskTag, Planner.UpdateText and Planner.SetTaskHours: the same shared-object effect is not modelled. They change only the first position.
- Planner.SetTaskHours: which text containing a digit reads as which number (such as "-5" as −5, then 0 hours) is left to the `Host` parameter. Only text without a digit is pinned, and only under `Js.DigitlessIsNotFinite`.
- Popout.Check: after a drag that shares one task object between two positions (see `Popout.SyncOrderFromDom`), the source's mutation shows at both positions. The model changes only the clicked one.
- Popout.CommitEdit: the same shared-object effect is not modelled for an edit that changes the text.
- Popout.Check: the handler acts on the task object its closure captured. The model names that task by its position, so it requires the position to be in the list.
- Popout.CommitEdit: the same closure-captured task, named by position. A handler whose task was already removed by another window's sync is not modelled.

## Findings

| source | as written | input that shows it | evidently intended | confidence | as-written member | corrected member |
|---|---|---|---|---|---|---|
| popout.js:166-172 | After a drag, the list is rebuilt from the ids of the rendered tasks only. Under an active search filter, every hidden task is dropped from the list and the loss is saved. | Tasks "m" and "b" with the search "m": only "m" is rendered, and dragging it commits the list ["m"]. | Reorder the rendered tasks and keep the hidden ones, so that the commit is a permutation of the list. | not executed | PopoutLaws.FilteredDragDropsHidden | Popout.SyncOrderKeepingHidden |

The main window's `updateText` can commit a text ending in a space when the
600-character cap cuts just after one (`PlannerLaws.CleanTextMayEndInSpace`).
This is a property of the order of `trim` and `slice`, and is stated as such
rather than as a defect (`Planner.CleanTextShape`).

=== FILE: id_order.dfy ===
/** Rebuilding a task list from the order of ids a drag left on screen:
    `ids.map(id => new Map(tasks.map(t => [t.id, t])).get(id)).filter(Boolean)`.
    Both task-list variants use this step; it is generic in the task type and
    in how an id is read from a task. */
module IdOrder {
  import opened Seqs

  /** `ts[i]` is the last entry of `ts` whose key is `id`. */
  predicate LastWith<T>(ts: seq<T>, key: T -> string, id: string, i: int)
  {
    0 <= i < |ts| && key(ts[i]) == id && forall j :: i < j < |ts| ==> key(ts[j]) != id
  }

  /** `new Map(ts.map(t => [key(t), t])).get(id)`: a later entry overwrites an
      earlier one with the same key, so the lookup finds the last of them. */
  function Lookup<T>(ts: seq<T>, key: T -> string, id: string): (r: Option<T>)
    ensures r.None? <==> forall i :: 0 <= i < |ts| ==> key(ts[i]) != id
    ensures r.Some? ==> exists i :: LastWith(ts, key, id, i) && ts[i] == r.value
    decreases |ts|
  {
    if |ts| == 0 then None
    else if key(ts[|ts| - 1]) == id then
      assert LastWith(ts, key, id, |ts| - 1);
      Some(ts[|ts| - 1])
    else
      var front := ts[..|ts| - 1];
      var r := Lookup(front, key, id);
      assert forall i :: 0 <= i < |front| ==> front[i] == ts[i];
      assert r.Some? ==> exists i :: LastWith(ts, key, id, i) && ts[i] == r.value by {
        if r.Some? {
          var i :| LastWith(front, key, id, i) && front[i] == r.value;
          assert LastWith(ts, key, id, i);
        }
      }
      r
  }

  /** What the lookup finds carries the id it was asked for. */
  lemma LookupKey<T>(ts: seq<T>, key: T -> string, id: string)
    ensures Lookup(ts, key, id).Some? ==> key(Lookup(ts, key, id).value) == id
  {
  }

  /** Putting a task the lookup finds in front of tasks it finds gives tasks it finds. */
  lemma LookupCons<T>(ts: seq<T>, key: T -> string, t: T, rest: seq<T>)
    requires Lookup(ts, key, key(t)) == Some(t)
    requires forall k :: 0 <= k < |rest| ==> Lookup(ts, key, key(rest[k])) == Some(rest[k])
    ensures forall k :: 0 <= k < |[t] + rest| ==> Lookup(ts, key, key(([t] + rest)[k])) == Some(([t] + rest)[k])
  {
    assert forall k :: 1 <= k < |[t] + rest| ==> ([t] + rest)[k] == rest[k - 1];
  }

  /** The ids of `ids` that belong to some task of `ts`, in the order of `ids`. */
  function KnownIds<T>(ts: seq<T>, key: T -> string, ids: seq<string>): seq<string>
  {
    Filter(ids, id => id in Map(ts, key))
  }

  /** The list rebuilt from `ids`: one task per id that some task carries, in
      the order of `ids`, each the task the lookup finds for its id (the last
      one carrying it); ids no task carries are dropped. */
  function Reorder<T>(ts: seq<T>, key: T -> string, ids: seq<string>): (r: seq<T>)
    ensures Map(r, key) == KnownIds(ts, key, ids)
    ensures forall k :: 0 <= k < |r| ==> Lookup(ts, key, key(r[k])) == Some(r[k])
    ensures forall x :: x in r ==> x in ts
    ensures |r| <= |ids|
  {
    if |ids| == 0 then []
    else
      var rest := Reorder(ts, key, ids[1..]);
      assert ids[0] in Map(ts, key) <==> Lookup(ts, key, ids[0]).Some? by {
        if ids[0] in Map(ts, key) {
          var i :| 0 <= i < |ts| && Map(ts, key)[i] == ids[0];
        }
      }
      match Lookup(ts, key, ids[0])
      case None => rest
      case Some(t) =>
        var r := [t] + rest;
        assert Map(r, key) == [key(t)] + Map(rest, key);
        LookupKey(ts, key, ids[0]);
        LookupCons(ts, key, t, rest);
        r
  }

  /** With unique keys, looking up a task's own id finds that task. */
  lemma {:induction false} LookupUnique<T>(ts: seq<T>, key: T -> string, i: int)
    requires Distinct(Map(ts, key))
    requires 0 <= i < |ts|
    ensures Lookup(ts, key, key(ts[i])) == Some(ts[i])
  {
    var r := Lookup(ts, key, key(ts[i]));
    assert Map(ts, key)[i] == key(ts[i]);
    var j :| LastWith(ts, key, key(ts[i]), j) && ts[j] == r.value;
    assert Map(ts, key)[j] == key(ts[i]);
  }

  /** With unique keys, the rebuilt list holds exactly the tasks whose id is listed. */
  lemma {:induction false} ReorderMembers<T>(ts: seq<T>, key: T -> string, ids: seq<string>)
    requires Distinct(Map(ts, key))
    ensures forall i :: 0 <= i < |ts| ==> (ts[i] in Reorder(ts, key, ids) <==> key(ts[i]) in ids)
    ensures forall x :: x in Reorder(ts, key, ids) ==> key(x) in ids
  {
    ReorderOnlyListed(ts, key, ids);
    forall i | 0 <= i < |ts| && key(ts[i]) in ids ensures ts[i] in Reorder(ts, key, ids) {
      ReorderHasListed(ts, key, ids, i);
    }
  }

  lemma {:induction false} ReorderOnlyListed<T>(ts: seq<T>, key: T -> string, ids: seq<string>)
    ensures forall x :: x in Reorder(ts, key, ids) ==> key(x) in ids
  {
    var r := Reorder(ts, key, ids);
    forall x | x in r ensures key(x) in ids {
      var k :| 0 <= k < |r| && r[k] == x;
      assert Map(r, key)[k] == key(x);
      assert key(x) in KnownIds(ts, key, ids);
    }
  }

  lemma {:induction false} ReorderHasListed<T>(ts: seq<T>, key: T -> string, ids: seq<string>, i: int)
    requires Distinct(Map(ts, key))
    requires 0 <= i < |ts| && key(ts[i]) in ids
    ensures ts[i] in Reorder(ts, key, ids)
  {
    var r := Reorder(ts, key, ids);
    var k :| 0 <= k < |ids| && ids[k] == key(ts[i]);
    assert Map(ts, key)[i] == key(ts[i]);
    assert ids[k] in KnownIds(ts, key, ids);
    var m :| 0 <= m < |r| && Map(r, key)[m] == ids[k];
    LookupUnique(ts, key, i);
    assert r[m] == ts[i];
  }

  /** Distinct listed ids give a list without repeated tasks. */
  lemma {:induction false} ReorderDistinct<T>(ts: seq<T>, key: T -> string, ids: seq<string>)
    requires Distinct(ids)
    ensures Distinct(Reorder(ts, key, ids))
  {
    var r := Reorder(ts, key, ids);
    FilterDistinct(ids, id => id in Map(ts, key));
    forall i, j | 0 <= i < j < |r| ensures r[i] != r[j] {
      assert Map(r, key)[i] != Map(r, key)[j];
    }
  }

  /** Given ids that are a duplicate-free permutation of the tasks' unique ids,
      the rebuilt list is a permutation of the tasks, in exactly that id order. */
  lemma {:induction false} ReorderPermutation<T>(ts: seq<T>, key: T -> string, ids: seq<string>)
    requires Distinct(Map(ts, key))
    requires Distinct(ids)
    requires multiset(ids) == multiset(Map(ts, key))
    ensures Map(Reorder(ts, key, ids), key) == ids
    ensures multiset(Reorder(ts, key, ids)) == multiset(ts)
  {
    var r := Reorder(ts, key, ids);
    forall k | 0 <= k < |ids| ensures ids[k] in Map(ts, key) {
      assert ids[k] in multiset(ids);
    }
    FilterKeepsAll(ids, id => id in Map(ts, key));
    ReorderMembers(ts, key, ids);
    ReorderDistinct(ts, key, ids);
    forall i | 0 <= i < |ts| ensures key(ts[i]) in ids {
      assert Map(ts, key)[i] == key(ts[i]);
      assert key(ts[i]) in multiset(Map(ts, key));
    }
    assert Distinct(ts) by {
      forall i, j | 0 <= i < j < |ts| ensures ts[i] != ts[j] {
        assert Map(ts, key)[i] != Map(ts, key)[j];
      }
    }
    SameElementsPermutation(r, ts);
  }
}

=== FILE: js.dfy ===
/** The slice of JavaScript value semantics the planner's loaders rely on:
    the values `JSON.parse` yields, property lookup, truthiness, and the
    `+v` / `String(v)` coercions. */
module Js {

  /** A double as far as the planner cares: finite values (modelled as exact
      reals), NaN, and the two infinities. */
  datatype Num = Finite(r: real) | NaN | Infinity(negative: bool)

  /** A value as `JSON.parse` produces it, plus `undefined`, which is what a
      lookup of a missing property yields. */
  datatype Value =
    | Undefined
    | Null
    | Bool(b: bool)
    | Number(n: Num)
    | Str(s: string)
    | Arr(items: seq<Value>)
    | Obj(props: map<string, Value>)

  /** The outcome of `JSON.parse` on a stored payload: a thrown SyntaxError or a value. */
  datatype Decoded = Unparsable | Parsed(value: Value)

  /** The engine's conversions between numbers and their decimal text, which
      the planner calls but does not define. */
  datatype Host = Host(numberToString: real -> string, stringToNumber: string -> Num)

  /** Some character of `s` is a decimal digit. */
  predicate HasDigit(s: string)
  {
    exists i :: 0 <= i < |s| && '0' <= s[i] <= '9'
  }

  /** A property every conforming engine's `Number(text)` has: text without a
      decimal digit is blank (0), an `Infinity` spelling, or not a number at
      all, so it never reads as a non-zero finite number. */
  ghost predicate DigitlessIsNotFinite(host: Host)
  {
    forall s :: !HasDigit(s) ==> var n := host.stringToNumber(s); !n.Finite? || n.r == 0.0
  }

  /** `v?.key` for the fixed, non-inherited keys the planner reads: an object's
      own property, or `undefined`. */
  function Get(v: Value, key: string): Value
  {
    if v.Obj? && key in v.props then v.props[key] else Undefined
  }

  /** `null` or `undefined`: what `??` replaces and what a property read fails on. */
  predicate IsNullish(v: Value)
  {
    v.Undefined? || v.Null?
  }

  /** `!!v`: false exactly for undefined, null, false, 0, NaN and "". */
  predicate Truthy(v: Value)
  {
    match v
    case Undefined => false
    case Null => false
    case Bool(b) => b
    case Number(n) => !(n.NaN? || n == Finite(0.0))
    case Str(s) => s != ""
    case Arr(_) => true
    case Obj(_) => true
  }

  /** `String(v)` and `+v` throw a TypeError for an object that carries its own
      `toString` property: a parsed property is data, never a function, so the
      conversion finds neither a callable `toString` nor a primitive `valueOf`.
      An array throws when one of its non-nullish elements does, since both
      conversions of an array go through `join`. */
  predicate CoercionThrows(v: Value)
  {
    match v
    case Obj(props) => "toString" in props
    case Arr(items) => exists i :: 0 <= i < |items| && !IsNullish(items[i]) && CoercionThrows(items[i])
    case _ => false
  }

  /** `String(v)` where it does not throw. Arrays join their elements with
      commas, writing null and undefined elements as empty text; an object
      without its own `toString` prints as "[object Object]". */
  function ToString(v: Value, host: Host): string
    requires !CoercionThrows(v)
  {
    match v
    case Undefined => "undefined"
    case Null => "null"
    case Bool(b) => if b then "true" else "false"
    case Number(n) =>
      (match n
       case Finite(r) => host.numberToString(r)
       case NaN => "NaN"
       case Infinity(neg) => if neg then "-Infinity" else "Infinity")
    case Str(s) => s
    case Arr(items) =>
      Join(seq(|items|, i requires 0 <= i < |items| =>
        if IsNullish(items[i]) then "" else ToString(items[i], host)))
    case Obj(_) => "[object Object]"
  }

  /** `parts.join(",")`. */
  function Join(parts: seq<string>): string
  {
    if |parts| == 0 then ""
    else if |parts| == 1 then parts[0]
    else parts[0] + "," + Join(parts[1..])
  }

  /** `+v` where it does not throw: objects and arrays go through their text form. */
  function ToNumber(v: Value, host: Host): Num
    requires !CoercionThrows(v)
  {
    match v
    case Undefined => NaN
    case Null => Finite(0.0)
    case Bool(b) => Finite(if b then 1.0 else 0.0)
    case Number(n) => n
    case Str(s) => host.stringToNumber(s)
    case Arr(_) => host.stringToNumber(ToString(v, host))
    case Obj(_) => host.stringToNumber(ToString(v, host))
  }
}

=== FILE: planner.dfy ===
/** The main planner window (app.js): the task record, the loader that
    normalises a stored payload, and the in-memory list operations the
    controls call. The clock and the id generator are parameters: `now` is
    the timestamp `nowISO()` would give, `id` the value `uid()` would give. */
module Planner {
  import opened Seqs
  import opened Text
  import opened Js
  import IdOrder

  /** The `localStorage` key the main window saves its fallback copy under. */
  const StorageKey := "planner.tasks.v4"

  /** Longest task text the window keeps. */
  const MaxText := 600

  /** Colour labels of the main window. */
  datatype Tag = NoColour | Blue | Yellow | Red | Purple | Green

  function TagName(t: Tag): string
  {
    match t
    case NoColour => "none"
    case Blue => "blue"
    case Yellow => "yellow"
    case Red => "red"
    case Purple => "purple"
    case Green => "green"
  }

  /** A stored `tag`: one of the six colour names, anything else read as "none". */
  function ParseTag(v: Value): (t: Tag)
    ensures forall g: Tag :: v == Str(TagName(g)) ==> t == g
    ensures (forall g: Tag :: v != Str(TagName(g))) ==> t == NoColour
  {
    if v == Str(TagName(Blue)) then Blue
    else if v == Str(TagName(Yellow)) then Yellow
    else if v == Str(TagName(Red)) then Red
    else if v == Str(TagName(Purple)) then Purple
    else if v == Str(TagName(Green)) then Green
    else NoColour
  }

  /** A task. The timestamps are kept as the loader found them (`t.createdAt ||
      nowISO()` does not convert), and the operations write `Str(now)`. */
  datatype Task = Task(
    id: string,
    text: string,
    done: bool,
    tag: Tag,
    hours: real,
    createdAt: Value,
    updatedAt: Value)

  function IdOf(t: Task): string { t.id }

  function Ids(ts: seq<Task>): seq<string> { Map(ts, IdOf) }

  predicate IsOpen(t: Task) { !t.done }

  /** The field bounds every loaded or edited task meets. */
  predicate WellFormed(t: Task)
  {
    |t.text| <= MaxText && t.hours >= 0.0
  }

  predicate AllWellFormed(ts: seq<Task>)
  {
    forall i :: 0 <= i < |ts| ==> WellFormed(ts[i])
  }

  predicate UniqueIds(ts: seq<Task>)
  {
    Distinct(Ids(ts))
  }

  // ---------------------------------------------------------------------------
  // Loading a stored payload

  /** `Number.isFinite(n) ? Math.max(0, n) : 0`: a usable hour estimate. */
  function Hours(n: Num): (h: real)
    ensures h >= 0.0
    ensures n.Finite? && n.r >= 0.0 ==> h == n.r
    ensures !n.Finite? || n.r <= 0.0 ==> h == 0.0
  {
    if n.Finite? && n.r > 0.0 then n.r else 0.0
  }

  /** `v || nowISO()`. */
  function Stamp(v: Value, now: string): Value
  {
    if Truthy(v) then v else Str(now)
  }

  /** A stored entry the loader keeps: its `id` and its `text` are strings. */
  predicate Admissible(e: Value)
  {
    Get(e, "id").Str? && Get(e, "text").Str?
  }

  /** A kept entry on which the loader's `map` throws: `+t.hours` raises a
      TypeError, which the surrounding `catch` turns into no list at all. */
  predicate FailingEntry(e: Value)
  {
    Admissible(e) && CoercionThrows(Get(e, "hours"))
  }

  predicate HasFailingEntry(items: seq<Value>)
  {
    exists i :: 0 <= i < |items| && FailingEntry(items[i])
  }

  /** The task the loader makes of a kept entry. */
  function FromEntry(e: Value, host: Host, now: string): (t: Task)
    requires Admissible(e) && !FailingEntry(e)
    ensures t.id == Get(e, "id").s
    ensures t.text <= Get(e, "text").s
    ensures |t.text| == if |Get(e, "text").s| <= MaxText then |Get(e, "text").s| else MaxText
    ensures WellFormed(t)
  {
    Task(
      Get(e, "id").s,
      Take(Get(e, "text").s, MaxText),
      Truthy(Get(e, "done")),
      ParseTag(Get(e, "tag")),
      Hours(ToNumber(Get(e, "hours"), host)),
      Stamp(Get(e, "createdAt"), now),
      Stamp(Get(e, "updatedAt"), now))
  }

  /** One pass over the stored entries that keeps and normalises the admissible
      ones; it agrees with the source's `filter` followed by `map`. */
  function NormalizeEntries(items: seq<Value>, host: Host, now: string): (r: seq<Task>)
    requires !HasFailingEntry(items)
    ensures |r| == |Filter(items, Admissible)|
    ensures forall k :: 0 <= k < |r| ==> r[k] == FromEntry(Filter(items, Admissible)[k], host, now)
  {
    if |items| == 0 then []
    else
      assert forall i :: 1 <= i < |items| ==> items[1..][i - 1] == items[i];
      var rest := NormalizeEntries(items[1..], host, now);
      if Admissible(items[0]) then
        var r := [FromEntry(items[0], host, now)] + rest;
        assert Filter(items, Admissible) == [items[0]] + Filter(items[1..], Admissible);
        r
      else
        rest
  }

  /** `deserialize`: no list when the payload does not parse, its `tasks` is
      not an array, or a kept entry's `hours` cannot be converted; otherwise
      exactly the entries with a string `id` and a string `text`, in their
      stored order, each normalised. */
  function Deserialize(d: Decoded, host: Host, now: string): (r: Option<seq<Task>>)
    ensures r.None? <==>
      || d.Unparsable?
      || !Get(d.value, "tasks").Arr?
      || HasFailingEntry(Get(d.value, "tasks").items)
    ensures r.Some? ==> AllWellFormed(r.value)
    ensures r.Some? ==>
      var kept := Filter(Get(d.value, "tasks").items, Admissible);
      && |r.value| == |kept|
      && forall k :: 0 <= k < |kept| ==> r.value[k] == FromEntry(kept[k], host, now)
  {
    if d.Unparsable? then None
    else
      var tasks := Get(d.value, "tasks");
      if !tasks.Arr? || HasFailingEntry(tasks.items) then None
      else Some(NormalizeEntries(tasks.items, host, now))
  }

  // ---------------------------------------------------------------------------
  // Saving

  /** The record `JSON.stringify` is given for one task. */
  function TaskValue(t: Task): Value
  {
    Obj(map[
      "id" := Str(t.id),
      "text" := Str(t.text),
      "done" := Bool(t.done),
      "tag" := Str(TagName(t.tag)),
      "hours" := Number(Finite(t.hours)),
      "createdAt" := t.createdAt,
      "updatedAt" := t.updatedAt])
  }

  /** `serializeTasks`, before the text encoding: the version-4 envelope. */
  function Encode(ts: seq<Task>, now: string): (v: Value)
    ensures Get(v, "tasks").Arr? && |Get(v, "tasks").items| == |ts|
  {
    Obj(map[
      "version" := Number(Finite(4.0)),
      "updatedAt" := Str(now),
      "tasks" := Arr(Map(ts, TaskValue))])
  }

  // ---------------------------------------------------------------------------
  // List operations

  /** `ts[k]` is the first task with this id: the one `tasks.find` returns. */
  predicate FirstWith(ts: seq<Task>, id: string, k: int)
  {
    0 <= k < |ts| && ts[k].id == id && forall j :: 0 <= j < k ==> ts[j].id != id
  }

  /** There is only one first task with an id. */
  lemma FirstWithUnique(ts: seq<Task>, id: string, k: int)
    requires FirstWith(ts, id, k)
    ensures forall j :: FirstWith(ts, id, j) ==> j == k
  {
  }

  predicate Absent(ts: seq<Task>, id: string)
  {
    forall i :: 0 <= i < |ts| ==> ts[i].id != id
  }

  /** `tasks.find(x => x.id === id)`, as a position. */
  function Find(ts: seq<Task>, id: string): (r: Option<nat>)
    ensures r.None? <==> Absent(ts, id)
    ensures r.Some? ==> FirstWith(ts, id, r.value)
  {
    if |ts| == 0 then None
    else if ts[0].id == id then Some(0)
    else
      match Find(ts[1..], id)
      case None => None
      case Some(i) => Some(i + 1)
  }

  /** `addTask`: blank input changes nothing; otherwise a new open task with
      the trimmed text (capped), the default colour and no hours goes first. */
  function AddTask(ts: seq<Task>, text: string, defaultTag: Tag, id: string, now: string): (r: seq<Task>)
    ensures AllSpace(text) ==> r == ts
    ensures !AllSpace(text) ==>
      && |r| == |ts| + 1
      && r[1..] == ts
      && r[0].id == id
      && !r[0].done && r[0].tag == defaultTag && r[0].hours == 0.0
      && r[0].text != "" && r[0].text <= Trim(text)
      && |r[0].text| == (if |Trim(text)| <= MaxText then |Trim(text)| else MaxText)
      && r[0].createdAt == Str(now) && r[0].updatedAt == Str(now)
  {
    var t := Trim(text);
    if t == "" then ts
    else
      var r := [Task(id, Take(t, MaxText), false, defaultTag, 0.0, Str(now), Str(now))] + ts;
      assert r[1..] == ts;
      r
  }

  /** `toggleDone`: flips the completion flag of the first task with the id and
      stamps it; an unknown id changes nothing. */
  function ToggleDone(ts: seq<Task>, id: string, now: string): (r: seq<Task>)
    ensures Absent(ts, id) ==> r == ts
    ensures forall k :: FirstWith(ts, id, k) ==>
      ChangesOnly(ts, r, k) && r[k] == ts[k].(done := !ts[k].done, updatedAt := Str(now))
  {
    match Find(ts, id)
    case None => ts
    case Some(k) => ts[k := ts[k].(done := !ts[k].done, updatedAt := Str(now))]
  }

  /** `setTaskTag`: recolours the first task with the id and stamps it. */
  function SetTaskTag(ts: seq<Task>, id: string, tag: Tag, now: string): (r: seq<Task>)
    ensures Absent(ts, id) ==> r == ts
    ensures forall k :: FirstWith(ts, id, k) ==>
      ChangesOnly(ts, r, k) && r[k] == ts[k].(tag := tag, updatedAt := Str(now))
  {
    match Find(ts, id)
    case None => ts
    case Some(k) => ts[k := ts[k].(tag := tag, updatedAt := Str(now))]
  }

  /** `(text || "").trim().replace(/\s+/g, " ").slice(0, 600)`: the text an
      edit commits; `CleanTextShape` and `CleanTextContent` say what it looks like. */
  function CleanText(s: string): (r: string)
    ensures |r| <= MaxText
    ensures r == "" <==> AllSpace(s)
  {
    Take(Collapse(Trim(s)), MaxText)
  }

  /** A committed edit starts with a non-space, holds single plain spaces only,
      and can end in a space only when the cap cut it there. */
  lemma {:induction false} CleanTextShape(s: string)
    ensures var r := CleanText(s);
      && SingleSpaced(r)
      && (|r| > 0 ==> !IsSpace(r[0]))
      && (|r| > 0 && IsSpace(r[|r| - 1]) ==> |r| == MaxText)
  {
    var t := Trim(s);
    var c := Collapse(t);
    CollapseSingleSpaced(t);
    var r := Take(c, MaxText);
    PrefixSingleSpaced(r, c);
    if |r| > 0 {
      assert r[0] == c[0];
    }
    if |r| < MaxText {
      assert r == c;
    }
  }

  /** A committed edit keeps the visible characters of what was typed, in
      order: a prefix of them, and all of them when the input fits the cap. */
  lemma {:induction false} CleanTextContent(s: string)
    ensures NonSpace(CleanText(s)) <= NonSpace(s)
    ensures |s| <= MaxText ==> NonSpace(CleanText(s)) == NonSpace(s)
  {
    var c := Collapse(Trim(s));
    TrimNonSpace(s);
    CollapseNonSpace(Trim(s));
    NonSpacePrefix(Take(c, MaxText), c);
  }

  /** Two words typed with any run of whitespace between them are committed
      with exactly one plain space there (up to the cap). */
  lemma CleanTextJoinsWords(x: string, w: string, y: string)
    requires |x| > 0 && !IsSpace(x[0]) && !IsSpace(x[|x| - 1])
    requires |w| > 0 && AllSpace(w)
    requires |y| > 0 && !IsSpace(y[0]) && !IsSpace(y[|y| - 1])
    ensures CleanText(x + w + y) == Take(Collapse(x) + " " + Collapse(y), MaxText)
  {
    var s := x + w + y;
    assert s[0] == x[0] && s[|s| - 1] == y[|y| - 1];
    TrimKeepsTrimmed(s);
    CollapseGap(x, w, y);
  }

  /** `updateText`: commits the cleaned text to the first task with the id; an
      unknown id or an edit that cleans to nothing changes nothing. */
  function UpdateText(ts: seq<Task>, id: string, text: string, now: string): (r: seq<Task>)
    ensures Absent(ts, id) || AllSpace(text) ==> r == ts
    ensures forall k :: FirstWith(ts, id, k) && !AllSpace(text) ==>
      ChangesOnly(ts, r, k) && r[k] == ts[k].(text := CleanText(text), updatedAt := Str(now))
  {
    var v := CleanText(text);
    match Find(ts, id)
    case None => ts
    case Some(k) =>
      if v == "" then ts
      else
        FirstWithUnique(ts, id, k);
        var r := ts[k := ts[k].(text := v, updatedAt := Str(now))];
        assert ChangesOnly(ts, r, k);
        r
  }

  /** `setTaskHours`: the first task with the id takes the typed value as a
      non-negative estimate, zero when the text is not a finite number. */
  function SetTaskHours(ts: seq<Task>, id: string, input: string, host: Host, now: string): (r: seq<Task>)
    ensures Absent(ts, id) ==> r == ts
    ensures forall k :: FirstWith(ts, id, k) ==>
      && ChangesOnly(ts, r, k)
      && r[k] == ts[k].(hours := r[k].hours, updatedAt := Str(now))
      && r[k].hours == Hours(host.stringToNumber(input))
  {
    match Find(ts, id)
    case None => ts
    case Some(k) => ts[k := ts[k].(hours := Hours(ToNumber(Str(input), host)), updatedAt := Str(now))]
  }

  /** `removeTask`: every task with the id goes, each other one stays as
      often as it occurs, in order. */
  function RemoveTask(ts: seq<Task>, id: string): (r: seq<Task>)
    ensures IsSubsequence(r, ts)
    ensures Absent(r, id)
    ensures forall i :: 0 <= i < |ts| && ts[i].id != id ==> ts[i] in r
    ensures forall t :: multiset(r)[t] == if t.id != id then multiset(ts)[t] else 0
  {
    var keep := (t: Task) => t.id != id;
    var r := Filter(ts, keep);
    assert forall i :: 0 <= i < |r| ==> r[i] in r;
    FilterMultiset(ts, keep);
    r
  }

  /** `clearAll`. */
  function ClearAll(ts: seq<Task>): (r: seq<Task>)
    ensures |r| == 0
  {
    []
  }

  /** `clearDone`: the completed tasks go, each open one stays as often as it
      occurs, in order; the list shrinks exactly when some task was completed
      (the source saves only then). */
  function ClearDone(ts: seq<Task>): (r: seq<Task>)
    ensures IsSubsequence(r, ts)
    ensures forall i :: 0 <= i < |r| ==> !r[i].done
    ensures forall i :: 0 <= i < |ts| && !ts[i].done ==> ts[i] in r
    ensures |r| == |ts| <==> forall i :: 0 <= i < |ts| ==> !ts[i].done
    ensures forall t :: multiset(r)[t] == if !t.done then multiset(ts)[t] else 0
  {
    var r := Filter(ts, IsOpen);
    assert forall i :: 0 <= i < |r| ==> r[i] in r;
    FilterShrinks(ts, IsOpen);
    FilterMultiset(ts, IsOpen);
    r
  }

  /** The state step of `pointerUp`: the list rebuilt in the order the drag
      left on screen; ids no task carries are dropped. */
  function CommitDragOrder(ts: seq<Task>, ids: seq<string>): (r: seq<Task>)
    ensures Ids(r) == IdOrder.KnownIds(ts, IdOf, ids)
    ensures forall k :: 0 <= k < |r| ==> IdOrder.Lookup(ts, IdOf, r[k].id) == Some(r[k])
    ensures forall x :: x in r ==> x in ts
  {
    IdOrder.Reorder(ts, IdOf, ids)
  }
}

=== FILE: planner_laws.dfy ===
/** Laws relating the main window's operations to each other and to the
    loader: saving then loading gives the list back, the list invariants
    survive every operation, and the small algebra of the controls. */
module PlannerLaws {
  import opened Seqs
  import opened Text
  import opened Js
  import opened Planner
  import IdOrder

  /** Timestamps as the operations write them: non-empty text. */
  predicate Stamped(t: Task)
  {
    t.createdAt.Str? && t.createdAt.s != "" && t.updatedAt.Str? && t.updatedAt.s != ""
  }

  /** One saved record loads back as the task it was made from. */
  lemma TaskValueLoads(t: Task, host: Host, now: string)
    requires WellFormed(t) && Stamped(t)
    ensures Admissible(TaskValue(t)) && !FailingEntry(TaskValue(t))
    ensures FromEntry(TaskValue(t), host, now) == t
  {
    var e := TaskValue(t);
    assert Get(e, "tag") == Str(TagName(t.tag));
    assert Get(e, "hours") == Number(Finite(t.hours));
  }

  /** The estimate a loaded entry gets when its `hours` is not a usable number.
      A missing, `null` or `false` value, an infinite or NaN number, and (on an
      engine that reads numbers as the language defines) text without a digit
      all load as zero. `true` converts to one, so not every non-number is zero. */
  lemma LoadedHoursDefault(e: Value, host: Host, now: string)
    requires Admissible(e) && !FailingEntry(e)
    ensures Get(e, "hours") in {Undefined, Null, Bool(false)} ==> FromEntry(e, host, now).hours == 0.0
    ensures Get(e, "hours").Number? && !Get(e, "hours").n.Finite? ==> FromEntry(e, host, now).hours == 0.0
    ensures DigitlessIsNotFinite(host) && Get(e, "hours").Str? && !HasDigit(Get(e, "hours").s) ==>
              FromEntry(e, host, now).hours == 0.0
    ensures Get(e, "hours") == Bool(true) ==> FromEntry(e, host, now).hours == 1.0
  {
    var h := Get(e, "hours");
    if DigitlessIsNotFinite(host) && h.Str? && !HasDigit(h.s) {
      assert var n := host.stringToNumber(h.s); !n.Finite? || n.r == 0.0;
    }
  }

  /** Saving a list and loading the saved payload gives the same list back,
      for tasks within the field bounds whose timestamps are non-empty text. */
  lemma {:induction false} RoundTrip(ts: seq<Task>, now: string, host: Host, later: string)
    requires AllWellFormed(ts)
    requires forall i :: 0 <= i < |ts| ==> Stamped(ts[i])
    ensures Deserialize(Parsed(Encode(ts, now)), host, later) == Some(ts)
  {
    var items := Map(ts, TaskValue);
    assert Get(Encode(ts, now), "tasks") == Arr(items);
    forall i | 0 <= i < |items| ensures Admissible(items[i]) && !FailingEntry(items[i]) {
      TaskValueLoads(ts[i], host, later);
    }
    FilterKeepsAll(items, Admissible);
    var r := NormalizeEntries(items, host, later);
    forall k | 0 <= k < |ts| ensures r[k] == ts[k] {
      TaskValueLoads(ts[k], host, later);
    }
    assert r == ts;
  }

  /** A payload whose entries all carry a string id and text, and an `hours`
      that converts, loses none of them. */
  lemma DeserializeKeepsAdmissible(d: Decoded, host: Host, now: string)
    requires d.Parsed? && Get(d.value, "tasks").Arr?
    requires forall i :: 0 <= i < |Get(d.value, "tasks").items| ==>
      Admissible(Get(d.value, "tasks").items[i]) && !CoercionThrows(Get(Get(d.value, "tasks").items[i], "hours"))
    ensures Deserialize(d, host, now).Some?
    ensures |Deserialize(d, host, now).value| == |Get(d.value, "tasks").items|
  {
    FilterKeepsAll(Get(d.value, "tasks").items, Admissible);
  }

  /** One entry whose `hours` is an object with its own `toString` loses the
      whole payload, however well-formed the other entries are. */
  lemma ThrowingHoursLosesAll(d: Decoded, host: Host, now: string, k: nat)
    requires d.Parsed? && Get(d.value, "tasks").Arr? && k < |Get(d.value, "tasks").items|
    requires Admissible(Get(d.value, "tasks").items[k])
    requires Get(Get(d.value, "tasks").items[k], "hours").Obj?
    requires "toString" in Get(Get(d.value, "tasks").items[k], "hours").props
    ensures Deserialize(d, host, now).None?
  {
    assert FailingEntry(Get(d.value, "tasks").items[k]);
  }

  /** Toggling twice restores the completion flag; only the stamp moves. */
  lemma ToggleDoneTwice(ts: seq<Task>, id: string, first: string, second: string)
    ensures Absent(ts, id) ==> ToggleDone(ToggleDone(ts, id, first), id, second) == ts
    ensures forall k :: FirstWith(ts, id, k) ==>
      ToggleDone(ToggleDone(ts, id, first), id, second) == ts[k := ts[k].(updatedAt := Str(second))]
  {
    var r1 := ToggleDone(ts, id, first);
    forall k | FirstWith(ts, id, k)
      ensures ToggleDone(r1, id, second) == ts[k := ts[k].(updatedAt := Str(second))]
    {
      assert FirstWith(r1, id, k);
    }
  }

  /** Removing a task that was just added, under an id no other task has,
      gives back the list it was added to. */
  lemma AddThenRemove(ts: seq<Task>, text: string, tag: Tag, id: string, now: string)
    requires Absent(ts, id)
    ensures RemoveTask(AddTask(ts, text, tag, id, now), id) == ts
  {
    var keep := (t: Task) => t.id != id;
    FilterKeepsAll(ts, keep);
    var r := AddTask(ts, text, tag, id, now);
    if !AllSpace(text) {
      assert r == [r[0]] + ts;
    }
  }

  /** Clearing completed tasks a second time changes nothing. */
  lemma ClearDoneIdempotent(ts: seq<Task>)
    ensures ClearDone(ClearDone(ts)) == ClearDone(ts)
  {
    var r := ClearDone(ts);
    FilterKeepsAll(r, IsOpen);
  }

  /** Removing the same id a second time changes nothing. */
  lemma RemoveTaskIdempotent(ts: seq<Task>, id: string)
    ensures RemoveTask(RemoveTask(ts, id), id) == RemoveTask(ts, id)
  {
    var r := RemoveTask(ts, id);
    FilterKeepsAll(r, (t: Task) => t.id != id);
  }

  /** Replacing one task by one with the same id keeps the id sequence. */
  lemma ReplaceOneKeepsIds(ts: seq<Task>, r: seq<Task>, k: int)
    requires 0 <= k < |ts| && ChangesOnly(ts, r, k) && r[k].id == ts[k].id
    ensures Ids(r) == Ids(ts)
  {
    assert forall j :: 0 <= j < |ts| ==> Ids(r)[j] == Ids(ts)[j];
  }

  /** Replacing one task by one within the field bounds keeps the whole list within them. */
  lemma ReplaceOneKeepsWellFormed(ts: seq<Task>, r: seq<Task>, k: int)
    requires AllWellFormed(ts) && 0 <= k < |ts| && ChangesOnly(ts, r, k) && WellFormed(r[k])
    ensures AllWellFormed(r)
  {
    assert forall j :: 0 <= j < |r| && j != k ==> r[j] == ts[j];
  }

  /** A sublist of a list within the field bounds is within them. */
  lemma MembersKeepWellFormed(ts: seq<Task>, r: seq<Task>)
    requires AllWellFormed(ts) && forall x :: x in r ==> x in ts
    ensures AllWellFormed(r)
  {
    forall i | 0 <= i < |r| ensures WellFormed(r[i]) {
      assert r[i] in ts;
    }
  }

  /** `toggleDone` keeps the ids and the field bounds. */
  lemma ToggleDoneKeepsInvariants(ts: seq<Task>, id: string, now: string)
    ensures Ids(ToggleDone(ts, id, now)) == Ids(ts)
    ensures AllWellFormed(ts) ==> AllWellFormed(ToggleDone(ts, id, now))
  {
    var r := ToggleDone(ts, id, now);
    if k :| FirstWith(ts, id, k) {
      ReplaceOneKeepsIds(ts, r, k);
      if AllWellFormed(ts) { ReplaceOneKeepsWellFormed(ts, r, k); }
    }
  }

  /** `setTaskTag` keeps the ids and the field bounds. */
  lemma SetTaskTagKeepsInvariants(ts: seq<Task>, id: string, tag: Tag, now: string)
    ensures Ids(SetTaskTag(ts, id, tag, now)) == Ids(ts)
    ensures AllWellFormed(ts) ==> AllWellFormed(SetTaskTag(ts, id, tag, now))
  {
    var r := SetTaskTag(ts, id, tag, now);
    if k :| FirstWith(ts, id, k) {
      ReplaceOneKeepsIds(ts, r, k);
      if AllWellFormed(ts) { ReplaceOneKeepsWellFormed(ts, r, k); }
    }
  }

  /** `updateText` keeps the ids and the field bounds: a committed edit is capped. */
  lemma UpdateTextKeepsInvariants(ts: seq<Task>, id: string, text: string, now: string)
    ensures Ids(UpdateText(ts, id, text, now)) == Ids(ts)
    ensures AllWellFormed(ts) ==> AllWellFormed(UpdateText(ts, id, text, now))
  {
    var r := UpdateText(ts, id, text, now);
    if k :| FirstWith(ts, id, k) {
      if !AllSpace(text) {
        ReplaceOneKeepsIds(ts, r, k);
        if AllWellFormed(ts) { ReplaceOneKeepsWellFormed(ts, r, k); }
      }
    }
  }

  /** On an engine that reads numbers as the language defines, text without
      a digit ("abc", blank text, "Infinity") sets the estimate to zero. */
  lemma SetTaskHoursNonNumeric(ts: seq<Task>, id: string, input: string, host: Host, now: string, k: int)
    requires DigitlessIsNotFinite(host)
    requires !HasDigit(input)
    requires FirstWith(ts, id, k)
    ensures SetTaskHours(ts, id, input, host, now)[k].hours == 0.0
  {
    assert var n := host.stringToNumber(input); !n.Finite? || n.r == 0.0;
  }

  /** `setTaskHours` keeps the ids and the field bounds: the new estimate is never negative. */
  lemma SetTaskHoursKeepsInvariants(ts: seq<Task>, id: string, input: string, host: Host, now: string)
    ensures Ids(SetTaskHours(ts, id, input, host, now)) == Ids(ts)
    ensures AllWellFormed(ts) ==> AllWellFormed(SetTaskHours(ts, id, input, host, now))
  {
    var r := SetTaskHours(ts, id, input, host, now);
    if k :| FirstWith(ts, id, k) {
      ReplaceOneKeepsIds(ts, r, k);
      if AllWellFormed(ts) { ReplaceOneKeepsWellFormed(ts, r, k); }
    }
  }

  /** `addTask` keeps the field bounds, and unique ids when the new id is fresh. */
  lemma AddTaskKeepsInvariants(ts: seq<Task>, text: string, tag: Tag, id: string, now: string)
    ensures AllWellFormed(ts) ==> AllWellFormed(AddTask(ts, text, tag, id, now))
    ensures UniqueIds(ts) && Absent(ts, id) ==> UniqueIds(AddTask(ts, text, tag, id, now))
  {
    var a := AddTask(ts, text, tag, id, now);
    if !AllSpace(text) {
      assert a == [a[0]] + ts;
      PrependKeepsInvariants(a[0], ts);
    }
  }

  /** Putting a task in front keeps the list invariants it meets itself. */
  lemma PrependKeepsInvariants(t: Task, ts: seq<Task>)
    ensures WellFormed(t) && AllWellFormed(ts) ==> AllWellFormed([t] + ts)
    ensures UniqueIds(ts) && Absent(ts, t.id) ==> UniqueIds([t] + ts)
  {
    var a := [t] + ts;
    assert forall i :: 1 <= i < |a| ==> a[i] == ts[i - 1];
    var ids := Ids(a);
    assert forall i :: 1 <= i < |a| ==> ids[i] == Ids(ts)[i - 1];
  }

  /** `removeTask` keeps the field bounds and unique ids. */
  lemma RemoveTaskKeepsInvariants(ts: seq<Task>, id: string)
    ensures AllWellFormed(ts) ==> AllWellFormed(RemoveTask(ts, id))
    ensures UniqueIds(ts) ==> UniqueIds(RemoveTask(ts, id))
  {
    if AllWellFormed(ts) { MembersKeepWellFormed(ts, RemoveTask(ts, id)); }
    if UniqueIds(ts) { FilterKeysDistinct(ts, (t: Task) => t.id != id, IdOf); }
  }

  /** `clearDone` keeps the field bounds and unique ids. */
  lemma ClearDoneKeepsInvariants(ts: seq<Task>)
    ensures AllWellFormed(ts) ==> AllWellFormed(ClearDone(ts))
    ensures UniqueIds(ts) ==> UniqueIds(ClearDone(ts))
  {
    if AllWellFormed(ts) { MembersKeepWellFormed(ts, ClearDone(ts)); }
    if UniqueIds(ts) { FilterKeysDistinct(ts, IsOpen, IdOf); }
  }

  /** Committing a drag keeps the field bounds, and unique ids whenever the
      ids on screen are duplicate-free. */
  lemma CommitDragOrderKeepsInvariants(ts: seq<Task>, ids: seq<string>)
    ensures AllWellFormed(ts) ==> AllWellFormed(CommitDragOrder(ts, ids))
    ensures Distinct(ids) ==> UniqueIds(CommitDragOrder(ts, ids))
  {
    if AllWellFormed(ts) { MembersKeepWellFormed(ts, CommitDragOrder(ts, ids)); }
    if Distinct(ids) { FilterDistinct(ids, id => id in Map(ts, IdOf)); }
  }

  /** A drag over the whole list commits a permutation of the tasks, in
      exactly the order of the ids left on screen. */
  lemma CommitDragOrderPermutation(ts: seq<Task>, ids: seq<string>)
    requires UniqueIds(ts) && Distinct(ids)
    requires multiset(ids) == multiset(Ids(ts))
    ensures Ids(CommitDragOrder(ts, ids)) == ids
    ensures multiset(CommitDragOrder(ts, ids)) == multiset(ts)
  {
    IdOrder.ReorderPermutation(ts, IdOf, ids);
  }

  /** The cap can leave a committed edit ending in a space: 599 letters, a
      space and one more letter collapse to themselves and are cut after the space. */
  lemma CleanTextMayEndInSpace()
    ensures exists s :: var r := CleanText(s); |r| == MaxText && r[MaxText - 1] == ' '
  {
    var a := seq(MaxText - 1, _ => 'a');
    var x := a + [' '];
    LongLineIsClean(a, 'b');
    CapOfAppend(x, 'b');
    SameAtEnd(CleanText(x + ['b']), x);
  }

  lemma SameAtEnd(r: string, x: string)
    requires r == x && |x| == MaxText
    ensures |r| == MaxText && r[MaxText - 1] == x[MaxText - 1]
  {
  }

  /** A text that trimming and collapsing leave alone, one character over the
      cap, loses just that character. */
  lemma CapOfAppend(x: string, c: char)
    requires |x| == MaxText
    requires Trim(x + [c]) == x + [c] && Collapse(x + [c]) == x + [c]
    ensures CleanText(x + [c]) == x
  {
    PrefixOfAppend(x, [c]);
  }

  /** Visible characters, a space and a visible character: already trimmed
      and collapsed. */
  lemma LongLineIsClean(a: string, c: char)
    requires |a| > 0 && !IsSpace(c)
    requires forall i :: 0 <= i < |a| ==> !IsSpace(a[i])
    ensures Trim(a + [' '] + [c]) == a + [' '] + [c]
    ensures Collapse(a + [' '] + [c]) == a + [' '] + [c]
  {
    var s := a + [' ', c];
    AppendPair(a, ' ', c);
    assert !IsSpace(s[0]) && s[|s| - 1] == c;
    TrimKeepsTrimmed(s);
    SpaceThenVisible(c);
    CollapseWord(a, [' ', c]);
  }

  lemma SpaceThenVisible(c: char)
    requires !IsSpace(c)
    ensures Collapse([' ', c]) == [' ', c]
  {
    var s := [' ', c];
    assert TrimStart(s) == [c] by {
      assert IsSpace(s[0]) && s[1..] == [c];
    }
    assert Collapse([c]) == [c] by {
      assert [c][1..] == [];
    }
  }
}

=== FILE: popout.dfy ===
/** The popout window (popout.js): its own task record and loader, the
    search filter, the per-task handlers wired up by `render`, the drag
    commit, the add form and the cross-window `storage` listener. It keeps
    its own conventions, which differ from the main window's: five colours,
    an empty list for a payload without a task array, no text cap, and an
    edit to blank text deletes the task. The clock and the id generator are
    parameters. */
module Popout {
  import opened Seqs
  import opened Text
  import opened Js
  import IdOrder

  /** The localStorage key this window reads and writes. */
  const StorageKey := "planner.tasks.v1"

  /** Colour labels of the popout: the main window's palette without green. */
  datatype Tag = NoColour | Blue | Yellow | Red | Purple

  function TagName(t: Tag): string
  {
    match t
    case NoColour => "none"
    case Blue => "blue"
    case Yellow => "yellow"
    case Red => "red"
    case Purple => "purple"
  }

  /** A stored `tag`: one of the five colour names, anything else (including
      the main window's "green") read as "none". */
  function ParseTag(v: Value): (t: Tag)
    ensures forall g: Tag :: v == Str(TagName(g)) ==> t == g
    ensures (forall g: Tag :: v != Str(TagName(g))) ==> t == NoColour
    ensures v == Str("green") ==> t == NoColour
  {
    if v == Str(TagName(Blue)) then Blue
    else if v == Str(TagName(Yellow)) then Yellow
    else if v == Str(TagName(Red)) then Red
    else if v == Str(TagName(Purple)) then Purple
    else NoColour
  }

  /** A popout task: no hour estimate, timestamps as text. */
  datatype Task = Task(
    id: string,
    text: string,
    done: bool,
    tag: Tag,
    createdAt: string,
    updatedAt: string)

  function IdOf(t: Task): string { t.id }

  function Ids(ts: seq<Task>): seq<string> { Map(ts, IdOf) }

  predicate UniqueIds(ts: seq<Task>)
  {
    Distinct(Ids(ts))
  }

  /** `t.text.trim().length > 0`: the task shows some visible text. */
  predicate HasText(t: Task)
  {
    Trim(t.text) != ""
  }

  predicate AllHaveText(ts: seq<Task>)
  {
    forall i :: 0 <= i < |ts| ==> HasText(ts[i])
  }

  // ---------------------------------------------------------------------------
  // Loading a stored payload

  /** `v ? String(v) : nowISO()`. */
  function StampText(v: Value, host: Host, now: string): (s: string)
    requires !CoercionThrows(v)
    ensures v.Str? && v.s != "" ==> s == v.s
    ensures !Truthy(v) ==> s == now
  {
    if Truthy(v) then ToString(v, host) else now
  }

  /** An entry on which the loader's `map` throws: reading a property of
      `null`, or converting an `id`, a `text` or a set timestamp whose
      conversion raises a TypeError. The surrounding `catch` then yields no
      list at all. */
  predicate FailingEntry(e: Value)
  {
    || IsNullish(e)
    || CoercionThrows(Get(e, "id"))
    || CoercionThrows(Get(e, "text"))
    || CoercionThrows(Get(e, "createdAt"))
    || CoercionThrows(Get(e, "updatedAt"))
  }

  predicate HasFailingEntry(items: seq<Value>)
  {
    exists i :: 0 <= i < |items| && FailingEntry(items[i])
  }

  /** The task the loader makes of the entry at position `k`; `uid(k)` is
      the id `uid()` would give it. */
  function FromEntry(e: Value, k: nat, host: Host, uid: nat -> string, now: string): (t: Task)
    requires !FailingEntry(e)
    ensures Get(e, "id").Str? ==> t.id == Get(e, "id").s
    ensures IsNullish(Get(e, "id")) ==> t.id == uid(k)
    ensures Get(e, "text").Str? ==> t.text == Get(e, "text").s
    ensures IsNullish(Get(e, "text")) ==> t.text == ""
    ensures t.done <==> Truthy(Get(e, "done"))
    ensures t.tag == ParseTag(Get(e, "tag"))
  {
    var id := Get(e, "id");
    var text := Get(e, "text");
    Task(
      if IsNullish(id) then uid(k) else ToString(id, host),
      if IsNullish(text) then "" else ToString(text, host),
      Truthy(Get(e, "done")),
      ParseTag(Get(e, "tag")),
      StampText(Get(e, "createdAt"), host, now),
      StampText(Get(e, "updatedAt"), host, now))
  }

  /** Every stored entry made into a task, before the blank ones are dropped. */
  function Entries(items: seq<Value>, host: Host, uid: nat -> string, now: string): (es: seq<Task>)
    requires !HasFailingEntry(items)
    ensures |es| == |items|
    ensures forall k :: 0 <= k < |items| ==> es[k] == FromEntry(items[k], k, host, uid, now)
  {
    seq(|items|, k requires 0 <= k < |items| => FromEntry(items[k], k, host, uid, now))
  }

  /** The stored value holds a task array the loader walks. */
  predicate HasTaskArray(v: Value)
  {
    Truthy(v) && Get(v, "tasks").Arr?
  }

  /** The loader's closing `filter`: the blank tasks dropped, the others
      kept as often as they occur and in their order. */
  function DropBlank(es: seq<Task>): (r: seq<Task>)
    ensures AllHaveText(r)
    ensures IsSubsequence(r, es)
    ensures forall k :: 0 <= k < |es| && HasText(es[k]) ==> es[k] in r
    ensures forall t :: multiset(r)[t] == if HasText(t) then multiset(es)[t] else 0
  {
    FilterAccepts(es, HasText);
    FilterMultiset(es, HasText);
    Filter(es, HasText)
  }

  /** `deserialize`: no list only when the payload does not parse or an entry
      makes the loader throw; an empty list when the payload carries no task
      array; otherwise every entry made into a task, then `DropBlank`. */
  function Deserialize(d: Decoded, host: Host, uid: nat -> string, now: string): (r: Option<seq<Task>>)
    ensures r.None? <==> d.Unparsable? || (HasTaskArray(d.value) && HasFailingEntry(Get(d.value, "tasks").items))
    ensures d.Parsed? && !HasTaskArray(d.value) ==> r == Some([])
    ensures r.Some? ==> AllHaveText(r.value)
    ensures r.Some? && d.Parsed? && HasTaskArray(d.value) ==>
      r.value == DropBlank(Entries(Get(d.value, "tasks").items, host, uid, now))
  {
    if d.Unparsable? then None
    else if !HasTaskArray(d.value) then Some([])
    else
      var items := Get(d.value, "tasks").items;
      if HasFailingEntry(items) then None
      else Some(DropBlank(Entries(items, host, uid, now)))
  }

  // ---------------------------------------------------------------------------
  // Saving

  /** The record `JSON.stringify` is given for one task. */
  function TaskValue(t: Task): Value
  {
    Obj(map[
      "id" := Str(t.id),
      "text" := Str(t.text),
      "done" := Bool(t.done),
      "tag" := Str(TagName(t.tag)),
      "createdAt" := Str(t.createdAt),
      "updatedAt" := Str(t.updatedAt)])
  }

  /** `serialize`, before the text encoding: the version-1 envelope. */
  function Encode(ts: seq<Task>, now: string): (v: Value)
    ensures HasTaskArray(v) && |Get(v, "tasks").items| == |ts|
  {
    Obj(map[
      "version" := Number(Finite(1.0)),
      "updatedAt" := Str(now),
      "tasks" := Arr(Map(ts, TaskValue))])
  }

  // ---------------------------------------------------------------------------
  // Search filter

  /** `matchesFilter`: no filter accepts everything; otherwise the task's
      lower-cased text must contain the trimmed, lower-cased filter. */
  predicate MatchesFilter(filter: string, t: Task)
  {
    filter == "" || Contains(Lower(t.text), Lower(Trim(filter)))
  }

  /** The tasks `render` puts on screen, in list order. */
  function Visible(ts: seq<Task>, filter: string): (r: seq<Task>)
    ensures IsSubsequence(r, ts)
    ensures forall x :: x in r ==> x in ts && MatchesFilter(filter, x)
    ensures forall i :: 0 <= i < |ts| && MatchesFilter(filter, ts[i]) ==> ts[i] in r
    ensures forall t :: multiset(r)[t] == if MatchesFilter(filter, t) then multiset(ts)[t] else 0
  {
    var keep := (t: Task) => MatchesFilter(filter, t);
    FilterMultiset(ts, keep);
    Filter(ts, keep)
  }

  // ---------------------------------------------------------------------------
  // Handlers

  /** No task has the id; the same test as `Planner.Absent`, for this window's task type. */
  predicate Absent(ts: seq<Task>, id: string)
  {
    forall i :: 0 <= i < |ts| ==> ts[i].id != id
  }

  /** The check box of the task at position `i`: flips its completion flag
      and stamps it; no other task changes. */
  function Check(ts: seq<Task>, i: int, now: string): (r: seq<Task>)
    requires 0 <= i < |ts|
    ensures ChangesOnly(ts, r, i)
    ensures r[i].done == !ts[i].done && r[i].updatedAt == now
    ensures r[i] == ts[i].(done := r[i].done, updatedAt := now)
  {
    ts[i := ts[i].(done := !ts[i].done, updatedAt := now)]
  }

  /** The delete button (and a blank edit) of a task with this id: every task
      with the id goes, each other one stays as often as it occurs, in order. */
  function Delete(ts: seq<Task>, id: string): (r: seq<Task>)
    ensures IsSubsequence(r, ts)
    ensures Absent(r, id)
    ensures forall i :: 0 <= i < |ts| && ts[i].id != id ==> ts[i] in r
    ensures forall t :: multiset(r)[t] == if t.id != id then multiset(ts)[t] else 0
  {
    var keep := (t: Task) => t.id != id;
    var r := Filter(ts, keep);
    assert forall i :: 0 <= i < |r| ==> r[i] in r;
    FilterMultiset(ts, keep);
    r
  }

  /** Leaving the text field of the task at position `i`: blank input deletes
      the task, input that trims to the current text changes nothing, and any
      other input becomes the task's text, trimmed, with a new stamp. */
  function CommitEdit(ts: seq<Task>, i: int, input: string, now: string): (r: seq<Task>)
    requires 0 <= i < |ts|
    ensures AllSpace(input) ==> r == Delete(ts, ts[i].id)
    ensures !AllSpace(input) && Trim(input) == ts[i].text ==> r == ts
    ensures !AllSpace(input) ==>
      && ChangesOnly(ts, r, i)
      && r[i].text == Trim(input)
      && r[i].id == ts[i].id && r[i].done == ts[i].done && r[i].tag == ts[i].tag
      && r[i].createdAt == ts[i].createdAt
      && (Trim(input) != ts[i].text ==> r[i].updatedAt == now)
  {
    var v := Trim(input);
    if v == "" then Delete(ts, ts[i].id)
    else if v != ts[i].text then ts[i := ts[i].(text := v, updatedAt := now)]
    else ts
  }

  /** `syncOrderFromDOM`: with no task on screen nothing changes; otherwise
      the list becomes the tasks in the order of the ids on screen, ids no
      task carries dropped. Only the rendered tasks are on screen, so under
      an active filter the hidden tasks are lost (`FilteredDragDropsHidden`). */
  function SyncOrderFromDom(ts: seq<Task>, ids: seq<string>): (r: seq<Task>)
    ensures |ids| == 0 ==> r == ts
    ensures |ids| > 0 ==> Ids(r) == IdOrder.KnownIds(ts, IdOf, ids)
    ensures |ids| > 0 ==> forall k :: 0 <= k < |r| ==> IdOrder.Lookup(ts, IdOf, r[k].id) == Some(r[k])
    ensures forall x :: x in r ==> x in ts
  {
    if |ids| == 0 then ts else IdOrder.Reorder(ts, IdOf, ids)
  }

  /** `syncOrderFromDOM` as evidently intended: what the source commits,
      followed by every task whose id was not on screen, in list order. */
  function SyncOrderKeepingHidden(ts: seq<Task>, ids: seq<string>): (r: seq<Task>)
    ensures |ids| == 0 ==> r == ts
    ensures |ids| > 0 ==> r == SyncOrderFromDom(ts, ids) + Hidden(ts, ids)
    ensures forall x :: x in r ==> x in ts
  {
    if |ids| == 0 then ts
    else IdOrder.Reorder(ts, IdOf, ids) + Hidden(ts, ids)
  }

  /** The tasks whose id is not among `ids`, in list order. */
  function Hidden(ts: seq<Task>, ids: seq<string>): (r: seq<Task>)
    ensures forall x :: x in r ==> x in ts && x.id !in ids
    ensures forall i :: 0 <= i < |ts| && ts[i].id !in ids ==> ts[i] in r
  {
    Filter(ts, (t: Task) => t.id !in ids)
  }

  /** `addTask`: a new open, uncoloured task with the trimmed text goes first. */
  function AddTask(ts: seq<Task>, text: string, id: string, now: string): (r: seq<Task>)
    ensures |r| == |ts| + 1 && r[1..] == ts
    ensures r[0].id == id && r[0].text == Trim(text)
    ensures !r[0].done && r[0].tag == NoColour
    ensures r[0].createdAt == now && r[0].updatedAt == now
  {
    var r := [Task(id, Trim(text), false, NoColour, now, now)] + ts;
    assert r[1..] == ts;
    r
  }

  /** The add form: blank input is ignored, so every added task shows text. */
  function SubmitAdd(ts: seq<Task>, input: string, id: string, now: string): (r: seq<Task>)
    ensures AllSpace(input) ==> r == ts
    ensures !AllSpace(input) ==> r == AddTask(ts, input, id, now) && HasText(r[0])
  {
    if Trim(input) == "" then ts
    else
      var r := AddTask(ts, input, id, now);
      TrimTwice(input);
      r
  }

  /** The `storage` listener on this window's own key: a payload that loads
      replaces the list (even by an empty one, which is what a payload without
      a task array loads as); a removed key or a payload that fails to load
      keeps the current list; events for other keys change nothing.
      `newValue` is `None` when the event carries no text. */
  function OnStorage(ts: seq<Task>, key: string, newValue: Option<Decoded>, host: Host, uid: nat -> string, now: string): (r: seq<Task>)
    ensures key != StorageKey || newValue.None? ==> r == ts
    ensures key == StorageKey && newValue.Some? ==>
      var loaded := Deserialize(newValue.value, host, uid, now);
      (loaded.None? ==> r == ts) && (loaded.Some? ==> r == loaded.value)
    ensures newValue == Some(Unparsable) ==> r == ts
    ensures key == StorageKey && newValue.Some? && newValue.value.Parsed? ==>
      && (!HasTaskArray(newValue.value.value) ==> r == [])
      && (HasTaskArray(newValue.value.value) && HasFailingEntry(Get(newValue.value.value, "tasks").items) ==> r == ts)
    ensures r != ts ==> AllHaveText(r)
  {
    if key == StorageKey && newValue.Some? then
      match Deserialize(newValue.value, host, uid, now)
      case None => ts
      case Some(loaded) => loaded
    else ts
  }
}

=== FILE: popout_laws.dfy ===
/** Laws of the popout window: saving then loading (and the cross-window
    sync) gives the list back, the handlers keep the list invariants, the
    filter's guarantees, and the drag commit under an active filter. */
module PopoutLaws {
  import opened Seqs
  import opened Text
  import opened Js
  import opened Popout
  import IdOrder
  import Planner

  // The pop-out has its own task type, so `Stamped` and the list lemmas below
  // repeat their counterparts in `PlannerLaws` for that type.

  /** Timestamps as the handlers write them: non-empty text. */
  predicate Stamped(t: Task)
  {
    t.createdAt != "" && t.updatedAt != ""
  }

  // ---------------------------------------------------------------------------
  // Saving and loading

  /** One saved record loads back as the task it was made from. */
  lemma TaskValueLoads(t: Task, k: nat, host: Host, uid: nat -> string, now: string)
    requires Stamped(t)
    ensures FromEntry(TaskValue(t), k, host, uid, now) == t
  {
    var e := TaskValue(t);
    assert Get(e, "tag") == Str(TagName(t.tag));
  }

  /** Saving a list and loading the saved payload gives the same list back,
      for tasks that show text and carry non-empty timestamps. */
  lemma {:induction false} RoundTrip(ts: seq<Task>, now: string, host: Host, uid: nat -> string, later: string)
    requires AllHaveText(ts)
    requires forall i :: 0 <= i < |ts| ==> Stamped(ts[i])
    ensures Deserialize(Parsed(Encode(ts, now)), host, uid, later) == Some(ts)
  {
    EncodedEntries(ts, now, host, uid, later);
    FilterKeepsAll(ts, HasText);
    assert DropBlank(ts) == ts;
  }

  /** No saved entry makes the loader throw, and the entries load back as the tasks. */
  lemma EncodedEntries(ts: seq<Task>, now: string, host: Host, uid: nat -> string, later: string)
    requires forall i :: 0 <= i < |ts| ==> Stamped(ts[i])
    ensures !HasFailingEntry(Get(Encode(ts, now), "tasks").items)
    ensures Entries(Get(Encode(ts, now), "tasks").items, host, uid, later) == ts
  {
    var items := Map(ts, TaskValue);
    assert Get(Encode(ts, now), "tasks") == Arr(items);
    forall i | 0 <= i < |items| ensures !FailingEntry(items[i]) {
      assert items[i] == TaskValue(ts[i]);
      assert Get(items[i], "id").Str? && Get(items[i], "text").Str?;
      assert Get(items[i], "createdAt").Str? && Get(items[i], "updatedAt").Str?;
    }
    var es := Entries(items, host, uid, later);
    forall k | 0 <= k < |ts| ensures es[k] == ts[k] {
      TaskValueLoads(ts[k], k, host, uid, later);
    }
    assert es == ts;
  }

  /** A save made under this window's own key, that is by another popout
      window, reaches this one unchanged: the `storage` event carrying the
      saved list replaces the current list by exactly it. */
  lemma StorageAdoptsSavedList(ts: seq<Task>, saved: seq<Task>, now: string, host: Host, uid: nat -> string, later: string)
    requires AllHaveText(saved)
    requires forall i :: 0 <= i < |saved| ==> Stamped(saved[i])
    ensures OnStorage(ts, StorageKey, Some(Parsed(Encode(saved, now))), host, uid, later) == saved
  {
    RoundTrip(saved, now, host, uid, later);
  }

  /** One entry whose `text` is an object with its own `toString` loses the
      whole payload, however well-formed the other entries are. */
  lemma ThrowingTextLosesAll(d: Decoded, host: Host, uid: nat -> string, now: string, k: nat)
    requires d.Parsed? && HasTaskArray(d.value) && k < |Get(d.value, "tasks").items|
    requires Get(Get(d.value, "tasks").items[k], "text").Obj?
    requires "toString" in Get(Get(d.value, "tasks").items[k], "text").props
    ensures Deserialize(d, host, uid, now).None?
  {
    assert FailingEntry(Get(d.value, "tasks").items[k]);
  }

  /** The main window saves under a different key, so its saves never reach
      a popout window through the `storage` listener, whatever they carry. */
  lemma MainWindowSavesIgnored(ts: seq<Task>, newValue: Option<Decoded>, host: Host, uid: nat -> string, now: string)
    ensures Planner.StorageKey != StorageKey
    ensures OnStorage(ts, Planner.StorageKey, newValue, host, uid, now) == ts
  {
    assert Planner.StorageKey[15] != StorageKey[15];
  }

  // ---------------------------------------------------------------------------
  // Handler algebra

  /** Checking twice restores the completion flag; only the stamp moves. */
  lemma CheckTwice(ts: seq<Task>, i: int, first: string, second: string)
    requires 0 <= i < |ts|
    ensures Check(Check(ts, i, first), i, second) == ts[i := ts[i].(updatedAt := second)]
  {
    var r := Check(Check(ts, i, first), i, second);
    assert r[i] == ts[i].(updatedAt := second);
  }

  /** Committing the same edit again changes nothing: the field then holds
      exactly the trimmed text. */
  lemma CommitEditSettles(ts: seq<Task>, i: int, input: string, first: string, second: string)
    requires 0 <= i < |ts| && !AllSpace(input)
    ensures CommitEdit(CommitEdit(ts, i, input, first), i, input, second) == CommitEdit(ts, i, input, first)
  {
  }

  /** With unique ids, deleting a task removes exactly that task. */
  lemma {:induction false} DeleteExactlyOne(ts: seq<Task>, i: int)
    requires UniqueIds(ts) && 0 <= i < |ts|
    ensures Delete(ts, ts[i].id) == ts[..i] + ts[i + 1..]
  {
    var id := ts[i].id;
    var keep := (t: Task) => t.id != id;
    var a, b := ts[..i], ts[i + 1..];
    assert ts == a + ([ts[i]] + b);
    FilterConcat(a, [ts[i]] + b, keep);
    FilterConcat([ts[i]], b, keep);
    assert Filter([ts[i]], keep) == [];
    forall j | 0 <= j < |a| ensures keep(a[j]) {
      assert Ids(ts)[j] == a[j].id && Ids(ts)[i] == id;
    }
    forall j | 0 <= j < |b| ensures keep(b[j]) {
      assert Ids(ts)[i + 1 + j] == b[j].id && Ids(ts)[i] == id;
    }
    FilterKeepsAll(a, keep);
    FilterKeepsAll(b, keep);
  }

  // ---------------------------------------------------------------------------
  // Search filter

  /** A filter of blanks accepts every task. */
  lemma BlankFilterAcceptsAll(filter: string, t: Task)
    requires AllSpace(filter)
    ensures MatchesFilter(filter, t)
  {
    assert OccursAt(Lower(t.text), Lower(Trim(filter)), 0);
  }

  /** A task whose text contains the trimmed filter, in the same case, matches it. */
  lemma FilterFindsText(filter: string, t: Task, k: int)
    requires OccursAt(t.text, Trim(filter), k)
    ensures MatchesFilter(filter, t)
  {
    LowerOccurs(t.text, Trim(filter), k);
  }

  /** The filter does not see the case of the task's text. */
  lemma FilterIgnoresTextCase(filter: string, t: Task)
    ensures MatchesFilter(filter, t.(text := Lower(t.text))) == MatchesFilter(filter, t)
  {
    LowerTwice(t.text);
  }

  // ---------------------------------------------------------------------------
  // List invariants

  /** Replacing one task by one with the same id keeps the id sequence. */
  lemma ReplaceOneKeepsIds(ts: seq<Task>, r: seq<Task>, k: int)
    requires 0 <= k < |ts| && ChangesOnly(ts, r, k) && r[k].id == ts[k].id
    ensures Ids(r) == Ids(ts)
  {
    assert forall j :: 0 <= j < |ts| ==> Ids(r)[j] == Ids(ts)[j];
  }

  /** A list made of tasks of a list whose tasks all show text shows text throughout. */
  lemma MembersKeepText(ts: seq<Task>, r: seq<Task>)
    requires AllHaveText(ts) && forall x :: x in r ==> x in ts
    ensures AllHaveText(r)
  {
    forall i | 0 <= i < |r| ensures HasText(r[i]) {
      assert r[i] in ts;
    }
  }

  /** The check box keeps the ids and the visible text. */
  lemma CheckKeepsInvariants(ts: seq<Task>, i: int, now: string)
    requires 0 <= i < |ts|
    ensures Ids(Check(ts, i, now)) == Ids(ts)
    ensures AllHaveText(ts) ==> AllHaveText(Check(ts, i, now))
  {
    ReplaceOneKeepsIds(ts, Check(ts, i, now), i);
  }

  /** Deleting keeps the visible text and unique ids. */
  lemma DeleteKeepsInvariants(ts: seq<Task>, id: string)
    ensures AllHaveText(ts) ==> AllHaveText(Delete(ts, id))
    ensures UniqueIds(ts) ==> UniqueIds(Delete(ts, id))
  {
    if AllHaveText(ts) { MembersKeepText(ts, Delete(ts, id)); }
    if UniqueIds(ts) { FilterKeysDistinct(ts, (t: Task) => t.id != id, IdOf); }
  }

  /** Replacing one task by one that shows text keeps the whole list showing text. */
  lemma ReplaceOneKeepsText(ts: seq<Task>, r: seq<Task>, k: int)
    requires AllHaveText(ts) && 0 <= k < |ts| && ChangesOnly(ts, r, k) && HasText(r[k])
    ensures AllHaveText(r)
  {
    assert forall j :: 0 <= j < |r| && j != k ==> r[j] == ts[j];
  }

  /** Putting a task in front keeps the list invariants it meets itself. */
  lemma PrependKeepsInvariants(t: Task, ts: seq<Task>)
    ensures HasText(t) && AllHaveText(ts) ==> AllHaveText([t] + ts)
    ensures UniqueIds(ts) && Absent(ts, t.id) ==> UniqueIds([t] + ts)
  {
    var a := [t] + ts;
    assert forall i :: 1 <= i < |a| ==> a[i] == ts[i - 1];
    var ids := Ids(a);
    assert forall i :: 1 <= i < |a| ==> ids[i] == Ids(ts)[i - 1];
  }

  /** Text that is not blank still shows after trimming. */
  lemma TrimmedShowsText(s: string)
    requires !AllSpace(s)
    ensures Trim(Trim(s)) != ""
  {
    TrimTwice(s);
  }

  /** An edit keeps the visible text, since a blank edit deletes, and unique ids. */
  lemma CommitEditKeepsInvariants(ts: seq<Task>, i: int, input: string, now: string)
    requires 0 <= i < |ts|
    ensures AllHaveText(ts) ==> AllHaveText(CommitEdit(ts, i, input, now))
    ensures UniqueIds(ts) ==> UniqueIds(CommitEdit(ts, i, input, now))
  {
    var r := CommitEdit(ts, i, input, now);
    if AllSpace(input) {
      DeleteKeepsInvariants(ts, ts[i].id);
    } else {
      ReplaceOneKeepsIds(ts, r, i);
      TrimmedShowsText(input);
      assert r[i].text == Trim(input);
      if AllHaveText(ts) { ReplaceOneKeepsText(ts, r, i); }
    }
  }

  /** The add form keeps the visible text, and unique ids when the new id is fresh. */
  lemma SubmitAddKeepsInvariants(ts: seq<Task>, input: string, id: string, now: string)
    ensures AllHaveText(ts) ==> AllHaveText(SubmitAdd(ts, input, id, now))
    ensures UniqueIds(ts) && Absent(ts, id) ==> UniqueIds(SubmitAdd(ts, input, id, now))
  {
    var r := SubmitAdd(ts, input, id, now);
    if !AllSpace(input) {
      assert r == [r[0]] + ts;
      PrependKeepsInvariants(r[0], ts);
    }
  }

  /** Both drag commits keep the visible text; the source's keeps unique ids
      whenever the ids on screen are duplicate-free. */
  lemma SyncOrderKeepsInvariants(ts: seq<Task>, ids: seq<string>)
    ensures AllHaveText(ts) ==> AllHaveText(SyncOrderFromDom(ts, ids))
    ensures AllHaveText(ts) ==> AllHaveText(SyncOrderKeepingHidden(ts, ids))
    ensures UniqueIds(ts) && Distinct(ids) ==> UniqueIds(SyncOrderFromDom(ts, ids))
  {
    if AllHaveText(ts) {
      MembersKeepText(ts, SyncOrderFromDom(ts, ids));
      MembersKeepText(ts, SyncOrderKeepingHidden(ts, ids));
    }
    if UniqueIds(ts) && Distinct(ids) && |ids| > 0 {
      FilterDistinct(ids, id => id in Map(ts, IdOf));
    }
  }

  // ---------------------------------------------------------------------------
  // Dragging under an active filter

  /** The ids `render` puts on screen. */
  function RenderedIds(ts: seq<Task>, filter: string): seq<string>
  {
    Ids(Visible(ts, filter))
  }

  /** With unique ids, a task the filter hides carries no id that is on screen. */
  lemma HiddenIdNotRendered(ts: seq<Task>, filter: string, i: int)
    requires UniqueIds(ts)
    requires 0 <= i < |ts| && !MatchesFilter(filter, ts[i])
    ensures ts[i].id !in RenderedIds(ts, filter)
  {
    var vs := Visible(ts, filter);
    forall m | 0 <= m < |vs| ensures Ids(vs)[m] != ts[i].id {
      assert vs[m] in vs;
      var j :| 0 <= j < |ts| && ts[j] == vs[m];
      if j != i {
        assert Ids(ts)[j] != Ids(ts)[i];
      }
    }
  }

  /** What `syncOrderFromDOM` does after a drag while a filter hides some
      tasks: the ids on screen are only the rendered ones, so every hidden
      task is missing from the committed list, which is then saved. */
  lemma FilteredDragDropsHidden(ts: seq<Task>, filter: string, ids: seq<string>, i: int)
    requires UniqueIds(ts)
    requires |ids| > 0 && forall id :: id in ids ==> id in RenderedIds(ts, filter)
    requires 0 <= i < |ts| && !MatchesFilter(filter, ts[i])
    ensures ts[i] !in SyncOrderFromDom(ts, ids)
  {
    HiddenIdNotRendered(ts, filter, i);
    IdOrder.ReorderOnlyListed(ts, IdOf, ids);
  }

  /** The intended commit keeps the hidden tasks in the same situation. */
  lemma FilteredDragKeepsHidden(ts: seq<Task>, filter: string, ids: seq<string>, i: int)
    requires UniqueIds(ts)
    requires forall id :: id in ids ==> id in RenderedIds(ts, filter)
    requires 0 <= i < |ts| && !MatchesFilter(filter, ts[i])
    ensures ts[i] in SyncOrderKeepingHidden(ts, ids)
  {
    HiddenIdNotRendered(ts, filter, i);
    if |ids| > 0 {
      var r := SyncOrderKeepingHidden(ts, ids);
      assert ts[i] in Hidden(ts, ids);
      var h :| 0 <= h < |Hidden(ts, ids)| && Hidden(ts, ids)[h] == ts[i];
      assert r[|SyncOrderFromDom(ts, ids)| + h] == ts[i];
    }
  }

  /** The intended commit loses and duplicates nothing: it is a permutation
      of the list, whatever subset of the ids is on screen. */
  lemma KeepingHiddenIsPermutation(ts: seq<Task>, ids: seq<string>)
    requires UniqueIds(ts) && Distinct(ids)
    ensures multiset(SyncOrderKeepingHidden(ts, ids)) == multiset(ts)
  {
    if |ids| > 0 {
      var front := IdOrder.Reorder(ts, IdOf, ids);
      var back := Hidden(ts, ids);
      var r := front + back;
      assert Distinct(ts) by {
        forall i, j | 0 <= i < j < |ts| ensures ts[i] != ts[j] {
          assert Ids(ts)[i] != Ids(ts)[j];
        }
      }
      IdOrder.ReorderDistinct(ts, IdOf, ids);
      IdOrder.ReorderMembers(ts, IdOf, ids);
      FilterDistinct(ts, (t: Task) => t.id !in ids);
      DistinctConcat(front, back);
      forall x | x in ts ensures x in r {
        var i :| 0 <= i < |ts| && ts[i] == x;
      }
      SameElementsPermutation(r, ts);
    }
  }

  /** With every task on screen the two commits agree. */
  lemma KeepingHiddenAgreesUnfiltered(ts: seq<Task>, ids: seq<string>)
    requires forall i :: 0 <= i < |ts| ==> ts[i].id in ids
    ensures SyncOrderKeepingHidden(ts, ids) == SyncOrderFromDom(ts, ids)
  {
  }

  /** Two one-letter tasks, "m" and "b", of which the search "m" shows only the first. */
  function MilkAndBread(): seq<Task>
  {
    [Task("a", "m", false, NoColour, "t", "t"), Task("b", "b", false, NoColour, "t", "t")]
  }

  lemma MilkFilterShowsMilk()
    ensures MatchesFilter("m", MilkAndBread()[0])
  {
    SameLetterShows(MilkAndBread()[0], 'm');
  }

  /** A one-letter search shows a task whose text is that letter. */
  lemma SameLetterShows(t: Task, f: char)
    requires t.text == [f] && !IsSpace(f)
    ensures MatchesFilter([f], t)
  {
    assert OccursAt(t.text, Trim([f]), 0) by {
      OneLetterTrim(f);
      assert t.text[0..1] == [f];
    }
    FilterFindsText([f], t, 0);
  }

  lemma MilkFilterHidesBread()
    ensures !MatchesFilter("m", MilkAndBread()[1])
  {
    OtherLetterHides(MilkAndBread()[1], 'm');
  }

  /** A one-letter search hides a task whose text is a different single
      lower-case letter. */
  lemma OtherLetterHides(t: Task, f: char)
    requires |t.text| == 1 && 'a' <= t.text[0] <= 'z' && 'a' <= f <= 'z'
    requires t.text[0] != f
    ensures !MatchesFilter([f], t)
  {
    var h := t.text[0];
    assert Lower(t.text) == [h] by {
      assert t.text == [h];
      LowerLetter(h);
    }
    assert Lower(Trim([f])) == [f] by {
      OneLetterTrim(f);
      LowerLetter(f);
    }
    OneLetterMisses(h, f);
  }

  lemma OneLetterTrim(c: char)
    requires !IsSpace(c)
    ensures Trim([c]) == [c]
  {
    TrimKeepsTrimmed([c]);
  }

  lemma LowerLetter(c: char)
    requires 'a' <= c <= 'z'
    ensures Lower([c]) == [c]
  {
  }

  /** A one-letter text contains a one-letter needle only when they agree. */
  lemma OneLetterMisses(h: char, n: char)
    requires h != n
    ensures !Contains([h], [n])
  {
    assert [h][..1] == [h] && [h][1..] == [];
    assert [h] != [n] by {
      assert [h][0] != [n][0];
    }
  }

  lemma MilkVisible()
    ensures Visible(MilkAndBread(), "m") == [MilkAndBread()[0]]
  {
    var ts := MilkAndBread();
    MilkFilterShowsMilk();
    MilkFilterHidesBread();
    FirstOfTwo(ts[0], ts[1], (t: Task) => MatchesFilter("m", t));
    assert ts == [ts[0], ts[1]];
  }

  /** Filtering two elements of which only the first passes keeps the first. */
  lemma FirstOfTwo<T>(a: T, b: T, keep: T -> bool)
    requires keep(a) && !keep(b)
    ensures Filter([a, b], keep) == [a]
  {
    assert [a, b][1..] == [b];
    assert [b][1..] == [];
  }

  lemma MilkReorder()
    ensures SyncOrderFromDom(MilkAndBread(), ["a"]) == [MilkAndBread()[0]]
  {
    var ts := MilkAndBread();
    assert ts[..1] == [ts[0]];
    assert IdOrder.Lookup(ts, IdOf, "a") == IdOrder.Lookup(ts[..1], IdOf, "a");
    assert IdOrder.Lookup(ts, IdOf, "a") == Some(ts[0]);
    assert ["a"][1..] == [];
  }

  /** A concrete instance: with "m" typed in the search box only the first
      of two tasks is on screen, and dragging it commits a one-task list. */
  lemma FilteredDragExample()
    ensures RenderedIds(MilkAndBread(), "m") == ["a"]
    ensures SyncOrderFromDom(MilkAndBread(), ["a"]) == [MilkAndBread()[0]]
  {
    MilkVisible();
    MilkReorder();
    assert Ids([MilkAndBread()[0]]) == ["a"];
  }
}

=== FILE: seqs.dfy ===
/** Generic sequence vocabulary shared by both task-list variants: an optional
    value, order-preserving filtering, subsequences and duplicate-freedom. */
module Seqs {

  /** A value that may be missing, as `null` is used in the planner. */
  datatype Option<+T> = None | Some(value: T)

  /** `a` is `b` with some elements left out and the rest kept in order. */
  predicate IsSubsequence<T(==)>(a: seq<T>, b: seq<T>)
    decreases |b|
  {
    if |a| == 0 then true
    else if |b| == 0 then false
    else (a[0] == b[0] && IsSubsequence(a[1..], b[1..])) || IsSubsequence(a, b[1..])
  }

  /** No element occurs twice. */
  predicate Distinct<T(==)>(s: seq<T>)
  {
    forall i, j :: 0 <= i < j < |s| ==> s[i] != s[j]
  }

  /** `r` is `s` with at most the element at position `k` replaced. */
  predicate ChangesOnly<T(==)>(s: seq<T>, r: seq<T>, k: int)
  {
    |r| == |s| && forall j :: 0 <= j < |s| && j != k ==> r[j] == s[j]
  }

  /** `s.map(f)`. */
  function Map<T, U>(s: seq<T>, f: T -> U): (r: seq<U>)
    ensures |r| == |s|
    ensures forall i :: 0 <= i < |s| ==> r[i] == f(s[i])
  {
    seq(|s|, i requires 0 <= i < |s| => f(s[i]))
  }

  /** `s.filter(keep)`: the elements `keep` accepts, in their original order. */
  function Filter<T(==)>(s: seq<T>, keep: T -> bool): (r: seq<T>)
    ensures |r| <= |s|
    ensures IsSubsequence(r, s)
    ensures forall x :: x in r ==> x in s && keep(x)
    ensures forall i :: 0 <= i < |s| && keep(s[i]) ==> s[i] in r
  {
    if |s| == 0 then []
    else
      var rest := Filter(s[1..], keep);
      assert forall i :: 1 <= i < |s| ==> s[i] == s[1..][i - 1];
      if keep(s[0]) then
        var r := [s[0]] + rest;
        assert r[1..] == rest;
        r
      else
        rest
  }

  /** Filtering keeps every accepted element as often as it occurs and drops every other one. */
  lemma {:induction false} FilterCounts<T>(s: seq<T>, keep: T -> bool, x: T)
    ensures multiset(Filter(s, keep))[x] == if keep(x) then multiset(s)[x] else 0
  {
    if |s| > 0 {
      FilterCounts(s[1..], keep, x);
      assert s == [s[0]] + s[1..];
    }
  }

  /** Every element of a filtered sequence passes the test. */
  lemma FilterAccepts<T>(s: seq<T>, keep: T -> bool)
    ensures forall i :: 0 <= i < |Filter(s, keep)| ==> keep(Filter(s, keep)[i])
  {
    var r := Filter(s, keep);
    assert forall i :: 0 <= i < |r| ==> r[i] in r;
  }

  /** `FilterCounts` for every element at once. */
  lemma FilterMultiset<T>(s: seq<T>, keep: T -> bool)
    ensures forall x :: multiset(Filter(s, keep))[x] == if keep(x) then multiset(s)[x] else 0
  {
    forall x ensures multiset(Filter(s, keep))[x] == if keep(x) then multiset(s)[x] else 0 {
      FilterCounts(s, keep, x);
    }
  }

  /** Filtering distributes over concatenation. */
  lemma {:induction false} FilterConcat<T>(a: seq<T>, b: seq<T>, keep: T -> bool)
    ensures Filter(a + b, keep) == Filter(a, keep) + Filter(b, keep)
  {
    if |a| == 0 {
      assert a + b == b;
    } else {
      var s := a + b;
      assert s[0] == a[0] && s[1..] == a[1..] + b;
      FilterConcat(a[1..], b, keep);
      FilterStep(s, keep);
      FilterStep(a, keep);
      var h := if keep(a[0]) then [a[0]] else [];
      var x, y := Filter(a[1..], keep), Filter(b, keep);
      ConcatAssoc(h, x, y);
    }
  }

  lemma PrefixOfAppend<T>(a: seq<T>, b: seq<T>)
    ensures (a + b)[..|a|] == a
  {
  }

  lemma AppendPair<T>(a: seq<T>, x: T, y: T)
    ensures a + [x, y] == (a + [x]) + [y]
  {
    assert [x, y] == [x] + [y];
    ConcatAssoc(a, [x], [y]);
  }

  lemma ConcatAssoc<T>(a: seq<T>, b: seq<T>, c: seq<T>)
    ensures a + (b + c) == (a + b) + c
  {
  }

  /** One step of filtering: the head if it passes, then the filtered tail. */
  lemma FilterStep<T>(s: seq<T>, keep: T -> bool)
    requires |s| > 0
    ensures Filter(s, keep) == (if keep(s[0]) then [s[0]] else []) + Filter(s[1..], keep)
  {
    if !keep(s[0]) {
      assert [] + Filter(s[1..], keep) == Filter(s[1..], keep);
    }
  }

  /** Filtering a duplicate-free sequence gives a duplicate-free sequence. */
  lemma {:induction false} FilterDistinct<T>(s: seq<T>, keep: T -> bool)
    requires Distinct(s)
    ensures Distinct(Filter(s, keep))
  {
    if |s| > 0 {
      assert Distinct(s[1..]);
      FilterDistinct(s[1..], keep);
      var rest := Filter(s[1..], keep);
      if keep(s[0]) {
        assert s[0] !in s[1..];
        var r := [s[0]] + rest;
        forall i, j | 0 <= i < j < |r| ensures r[i] != r[j] {
          if i == 0 {
            assert r[j] == rest[j - 1] && rest[j - 1] in rest;
          } else {
            assert r[i] == rest[i - 1] && r[j] == rest[j - 1];
          }
        }
      }
    }
  }

  /** Filtering with a test every element passes changes nothing. */
  lemma {:induction false} FilterKeepsAll<T>(s: seq<T>, keep: T -> bool)
    requires forall i :: 0 <= i < |s| ==> keep(s[i])
    ensures Filter(s, keep) == s
  {
    if |s| > 0 {
      FilterKeepsAll(s[1..], keep);
      assert s == [s[0]] + s[1..];
    }
  }

  /** Filtering keeps the keys of a keyed sequence distinct. */
  lemma {:induction false} FilterKeysDistinct<T, K>(s: seq<T>, keep: T -> bool, key: T -> K)
    requires Distinct(Map(s, key))
    ensures Distinct(Map(Filter(s, keep), key))
  {
    if |s| > 0 {
      var ks := Map(s, key);
      assert Map(s[1..], key) == ks[1..];
      FilterKeysDistinct(s[1..], keep, key);
      var rest := Filter(s[1..], keep);
      if keep(s[0]) {
        var r := [s[0]] + rest;
        var kr := Map(r, key);
        forall i, j | 0 <= i < j < |kr| ensures kr[i] != kr[j] {
          if i == 0 {
            assert r[j] == rest[j - 1] && rest[j - 1] in s[1..];
            var m :| 0 <= m < |s[1..]| && s[1..][m] == r[j];
            assert ks[m + 1] == key(r[j]);
          } else {
            assert kr[i] == Map(rest, key)[i - 1] && kr[j] == Map(rest, key)[j - 1];
          }
        }
      }
    }
  }

  /** Filtering drops something exactly when some element fails the test. */
  lemma {:induction false} FilterShrinks<T>(s: seq<T>, keep: T -> bool)
    ensures |Filter(s, keep)| == |s| <==> forall i :: 0 <= i < |s| ==> keep(s[i])
  {
    if |s| > 0 {
      FilterShrinks(s[1..], keep);
      assert forall i :: 1 <= i < |s| ==> s[i] == s[1..][i - 1];
      assert (forall i :: 0 <= i < |s| ==> keep(s[i])) <==> keep(s[0]) && forall i :: 0 <= i < |s[1..]| ==> keep(s[1..][i]);
    }
  }

  /** A duplicate-free sequence holds each of its elements exactly once. */
  lemma {:induction false} DistinctCounts<T>(s: seq<T>)
    requires Distinct(s)
    ensures forall x :: multiset(s)[x] == if x in s then 1 else 0
  {
    if |s| > 0 {
      assert Distinct(s[1..]);
      DistinctCounts(s[1..]);
      assert s == [s[0]] + s[1..];
      assert s[0] !in s[1..];
    }
  }

  /** Two duplicate-free sequences with the same elements are permutations of each other. */
  lemma SameElementsPermutation<T>(a: seq<T>, b: seq<T>)
    requires Distinct(a) && Distinct(b)
    requires forall x :: x in a <==> x in b
    ensures multiset(a) == multiset(b)
  {
    DistinctCounts(a);
    DistinctCounts(b);
    assert forall x :: multiset(a)[x] == multiset(b)[x];
  }

  /** Concatenating two duplicate-free sequences with no common element gives a duplicate-free sequence. */
  lemma DistinctConcat<T>(a: seq<T>, b: seq<T>)
    requires Distinct(a) && Distinct(b)
    requires forall x :: x in a ==> x !in b
    ensures Distinct(a + b)
  {
    forall i, j | 0 <= i < j < |a + b|
      ensures (a + b)[i] != (a + b)[j]
    {
      if j < |a| {
      } else if i >= |a| {
        assert (a + b)[i] == b[i - |a|] && (a + b)[j] == b[j - |a|];
      } else {
        assert (a + b)[i] == a[i] && a[i] in a;
        assert (a + b)[j] == b[j - |a|] && b[j - |a|] in b;
      }
    }
  }
}

=== FILE: text.dfy ===
/** The string operations the planner borrows from JavaScript: `trim`,
    `replace(/\s+/g, " ")`, `slice(0, n)`, `toLowerCase` and `includes`. */
module Text {
  import Seqs

  /** The ECMAScript WhiteSpace and LineTerminator code points: exactly what
      `String.prototype.trim` strips and what the regular-expression class `\s` matches. */
  predicate IsSpace(c: char)
  {
    || c == ' ' || '\t' <= c <= '\r'
    || (c >= '\U{00A0}' && WideSpace(c))
  }

  /** The whitespace code points outside ASCII. */
  predicate WideSpace(c: char)
  {
    || c == '\U{00A0}' || c == '\U{1680}' || '\U{2000}' <= c <= '\U{200A}'
    || c == '\U{2028}' || c == '\U{2029}' || c == '\U{202F}' || c == '\U{205F}'
    || c == '\U{3000}' || c == '\U{FEFF}'
  }

  predicate AllSpace(s: string)
  {
    forall i :: 0 <= i < |s| ==> IsSpace(s[i])
  }

  /** The characters of `s` that are not whitespace, in order. */
  function NonSpace(s: string): string
  {
    if |s| == 0 then ""
    else (if IsSpace(s[0]) then "" else [s[0]]) + NonSpace(s[1..])
  }

  /** Positions `i` and `i + 1` of `s` both hold whitespace. */
  predicate DoubleSpaceAt(s: string, i: int)
  {
    0 <= i < |s| - 1 && IsSpace(s[i]) && IsSpace(s[i + 1])
  }

  /** Only the plain space occurs as whitespace, and never twice in a row. */
  predicate SingleSpaced(s: string)
  {
    && (forall i :: 0 <= i < |s| && IsSpace(s[i]) ==> s[i] == ' ')
    && (forall i :: 0 <= i < |s| ==> !DoubleSpaceAt(s, i))
  }

  /** `trimStart`: drops the leading whitespace. */
  function TrimStart(s: string): (r: string)
    ensures |r| <= |s| && r == s[|s| - |r|..]
    ensures AllSpace(s[..|s| - |r|])
    ensures |r| > 0 ==> !IsSpace(r[0])
  {
    if |s| > 0 && IsSpace(s[0]) then
      var t := s[1..];
      var r := TrimStart(t);
      var n := |s| - |r|;
      assert t[|t| - |r|..] == s[n..];
      var pre, tpre := s[..n], t[..n - 1];
      assert forall i :: 0 < i < n ==> pre[i] == tpre[i - 1];
      assert AllSpace(pre) by {
        forall i | 0 <= i < n ensures IsSpace(pre[i]) {
          if i > 0 { assert IsSpace(tpre[i - 1]); }
        }
      }
      r
    else s
  }

  /** Dropping leading whitespace keeps every visible character. */
  lemma {:induction false} TrimStartNonSpace(s: string)
    ensures NonSpace(TrimStart(s)) == NonSpace(s)
  {
    if |s| > 0 && IsSpace(s[0]) {
      TrimStartNonSpace(s[1..]);
    }
  }

  /** `trimEnd`: drops the trailing whitespace. */
  function TrimEnd(s: string): (r: string)
    ensures |r| <= |s| && r == s[..|r|]
    ensures AllSpace(s[|r|..])
    ensures |r| > 0 ==> !IsSpace(r[|r| - 1])
    decreases |s|
  {
    if |s| > 0 && IsSpace(s[|s| - 1]) then
      var r := TrimEnd(s[..|s| - 1]);
      assert s[|r|..] == s[..|s| - 1][|r|..] + [s[|s| - 1]];
      r
    else s
  }

  /** `trim`: the part of `s` between its leading and its trailing whitespace. */
  function Trim(s: string): (r: string)
    ensures |r| > 0 ==> !IsSpace(r[0]) && !IsSpace(r[|r| - 1])
    ensures r == "" <==> AllSpace(s)
    ensures |r| <= |s|
  {
    TrimSplits(s);
    TrimEnd(TrimStart(s))
  }

  /** A string without whitespace at either end is its own trim. */
  lemma TrimKeepsTrimmed(s: string)
    requires |s| > 0 && !IsSpace(s[0]) && !IsSpace(s[|s| - 1])
    ensures Trim(s) == s
  {
    assert |TrimStart(s)| == |s|;
    assert TrimStart(s) == s;
    assert |TrimEnd(s)| == |s|;
  }

  /** Trimming twice is trimming once. */
  lemma TrimTwice(s: string)
    ensures Trim(Trim(s)) == Trim(s)
  {
    if Trim(s) != "" {
      TrimKeepsTrimmed(Trim(s));
    }
  }

  /** Trimming keeps every visible character. */
  lemma TrimNonSpace(s: string)
    ensures NonSpace(Trim(s)) == NonSpace(s)
  {
    TrimSplits(s);
    TrimKeepsNonSpace(s, Trim(s), |s| - |TrimStart(s)|);
  }

  lemma {:induction false} TrimKeepsNonSpace(s: string, r: string, k: int)
    requires TrimmedAt(s, r, k)
    ensures NonSpace(r) == NonSpace(s)
  {
    assert s == s[..k] + r + s[k + |r|..];
    NonSpaceConcat(s[..k] + r, s[k + |r|..]);
    NonSpaceConcat(s[..k], r);
    NonSpaceOfSpaces(s[..k]);
    NonSpaceOfSpaces(s[k + |r|..]);
  }

  lemma {:induction false} NonSpaceOfSpaces(s: string)
    requires AllSpace(s)
    ensures NonSpace(s) == ""
  {
    if |s| > 0 {
      NonSpaceOfSpaces(s[1..]);
    }
  }

  /** `s` is whitespace, then `r` starting at offset `k`, then whitespace. */
  predicate TrimmedAt(s: string, r: string, k: int)
  {
    0 <= k <= |s| - |r| && r == s[k..k + |r|] && AllSpace(s[..k]) && AllSpace(s[k + |r|..])
  }

  lemma {:induction false} TrimSplits(s: string)
    ensures TrimmedAt(s, TrimEnd(TrimStart(s)), |s| - |TrimStart(s)|)
    ensures TrimEnd(TrimStart(s)) == "" ==> AllSpace(s)
  {
    TrimShape(s);
    TrimEmpty(s);
  }

  lemma {:induction false} TrimShape(s: string)
    ensures TrimmedAt(s, TrimEnd(TrimStart(s)), |s| - |TrimStart(s)|)
  {
    var a := TrimStart(s);
    var r := TrimEnd(a);
    var k := |s| - |a|;
    assert a == s[k..];
    assert AllSpace(s[..k]);
    assert |r| <= |a| && r == a[..|r|] && AllSpace(a[|r|..]);
    TrimTail(s, a, r, k);
    assert TrimmedAt(s, r, k);
  }

  lemma {:induction false} TrimEmpty(s: string)
    ensures TrimEnd(TrimStart(s)) == "" ==> AllSpace(s)
  {
    var a := TrimStart(s);
    var r := TrimEnd(a);
    var k := |s| - |a|;
    if r == "" {
      assert a == s[k..];
      assert AllSpace(s[..k]);
      assert AllSpace(a[|r|..]);
      assert a[|r|..] == a;
      assert AllSpace(a);
      TrimBlank(s, a, k);
    }
  }

  lemma {:induction false} TrimTail(s: string, a: string, r: string, k: int)
    requires 0 <= k <= |s| && a == s[k..]
    requires |r| <= |a| && r == a[..|r|] && AllSpace(a[|r|..])
    ensures r == s[k..k + |r|] && AllSpace(s[k + |r|..])
  {
    forall i | 0 <= i < |r| ensures r[i] == s[k..k + |r|][i] {
      assert r[i] == a[i] == s[k + i];
    }
    var tail := s[k + |r|..];
    forall i | 0 <= i < |tail| ensures IsSpace(tail[i]) {
      assert tail[i] == a[|r|..][i];
    }
  }

  lemma {:induction false} TrimBlank(s: string, a: string, k: int)
    requires 0 <= k <= |s| && a == s[k..]
    requires AllSpace(s[..k]) && AllSpace(a)
    ensures AllSpace(s)
  {
    forall i | 0 <= i < |s| ensures IsSpace(s[i]) {
      if i < k { assert s[i] == s[..k][i]; } else { assert s[i] == a[i - k]; }
    }
  }

  /** `replace(/\s+/g, " ")`: every maximal run of whitespace becomes one space.
      What stays is single-spaced (`CollapseSingleSpaced`). */
  function Collapse(s: string): (r: string)
    ensures |r| <= |s|
    ensures |r| == 0 <==> |s| == 0
    ensures |s| > 0 ==> (IsSpace(r[0]) <==> IsSpace(s[0]))
    ensures |s| > 0 ==> (IsSpace(r[|r| - 1]) <==> IsSpace(s[|s| - 1]))
    decreases |s|
  {
    if |s| == 0 then ""
    else if IsSpace(s[0]) then
      var t := TrimStart(s);
      assert |t| > 0 ==> t[|t| - 1] == s[|s| - 1];
      var r := " " + Collapse(t);
      assert r[1..] == Collapse(t);
      r
    else
      var r := [s[0]] + Collapse(s[1..]);
      assert r[1..] == Collapse(s[1..]);
      r
  }

  /** Collapsing keeps every visible character. */
  lemma {:induction false} CollapseNonSpace(s: string)
    ensures NonSpace(Collapse(s)) == NonSpace(s)
    decreases |s|
  {
    if |s| > 0 {
      if IsSpace(s[0]) {
        var t := TrimStart(s);
        CollapseNonSpace(t);
        TrimStartNonSpace(s);
        var c := Collapse(t);
        assert (" " + c)[1..] == c;
      } else {
        CollapseNonSpace(s[1..]);
        var c := Collapse(s[1..]);
        assert ([s[0]] + c)[1..] == c;
      }
    }
  }

  /** After collapsing, the only whitespace is a plain space and no two are adjacent. */
  lemma {:induction false} CollapseSingleSpaced(s: string)
    ensures SingleSpaced(Collapse(s))
    decreases |s|
  {
    if |s| > 0 {
      var r := Collapse(s);
      var c, rest;
      if IsSpace(s[0]) {
        rest := TrimStart(s);
        c := ' ';
      } else {
        rest := s[1..];
        c := s[0];
      }
      CollapseSingleSpaced(rest);
      var cr := Collapse(rest);
      assert r == [c] + cr;
      assert IsSpace(c) ==> |cr| == 0 || !IsSpace(cr[0]);
      forall i | 0 <= i < |r| && IsSpace(r[i]) ensures r[i] == ' ' {
        if i > 0 { assert r[i] == cr[i - 1]; }
      }
      forall i | 0 <= i < |r| ensures !DoubleSpaceAt(r, i) {
        if i > 0 && i < |r| - 1 {
          assert r[i] == cr[i - 1] && r[i + 1] == cr[i];
          assert !DoubleSpaceAt(cr, i - 1);
        }
      }
    }
  }

  /** Collapsing leaves a stretch without whitespace at the front untouched. */
  lemma {:induction false} CollapseWord(a: string, t: string)
    requires forall i :: 0 <= i < |a| ==> !IsSpace(a[i])
    ensures Collapse(a + t) == a + Collapse(t)
  {
    if |a| > 0 {
      var s := a + t;
      assert s[0] == a[0] && s[1..] == a[1..] + t;
      CollapseHead(s);
      CollapseWord(a[1..], t);
      Seqs.ConcatAssoc([a[0]], a[1..], Collapse(t));
      assert [a[0]] + a[1..] == a;
    } else {
      assert a + t == t;
    }
  }

  /** A leading character that is not whitespace passes through collapsing. */
  lemma CollapseHead(s: string)
    requires |s| > 0 && !IsSpace(s[0])
    ensures Collapse(s) == [s[0]] + Collapse(s[1..])
  {
  }

  /** A leading whitespace character starts a run that collapses to one space. */
  lemma CollapseSpaceHead(s: string)
    requires |s| > 0 && IsSpace(s[0])
    ensures Collapse(s) == " " + Collapse(TrimStart(s))
  {
  }

  /** Trimming the front of `x + t` stops inside `x` when `x` ends in a visible character. */
  lemma {:induction false} TrimStartConcat(x: string, t: string)
    requires |x| > 0 && !IsSpace(x[|x| - 1])
    ensures TrimStart(x + t) == TrimStart(x) + t
    decreases |x|
  {
    var s := x + t;
    assert s[0] == x[0];
    if IsSpace(x[0]) {
      assert s[1..] == x[1..] + t;
      assert x[1..][|x[1..]| - 1] == x[|x| - 1];
      TrimStartConcat(x[1..], t);
    }
  }

  /** Trimming the front of whitespace followed by a visible character leaves what follows. */
  lemma {:induction false} TrimStartGap(w: string, y: string)
    requires AllSpace(w) && |y| > 0 && !IsSpace(y[0])
    ensures TrimStart(w + y) == y
    decreases |w|
  {
    if |w| == 0 {
      assert w + y == y;
    } else {
      var s := w + y;
      assert s[0] == w[0] && s[1..] == w[1..] + y;
      assert AllSpace(w[1..]) by {
        assert forall i :: 0 <= i < |w[1..]| ==> w[1..][i] == w[i + 1];
      }
      TrimStartGap(w[1..], y);
    }
  }

  /** Collapsing works piecewise across a boundary that follows a visible character. */
  lemma {:induction false} CollapseConcat(x: string, t: string)
    requires |x| == 0 || !IsSpace(x[|x| - 1])
    ensures Collapse(x + t) == Collapse(x) + Collapse(t)
    decreases |x|
  {
    if |x| == 0 {
      assert x + t == t;
    } else if !IsSpace(x[0]) {
      var s := x + t;
      assert s[0] == x[0] && s[1..] == x[1..] + t;
      assert |x[1..]| > 0 ==> x[1..][|x[1..]| - 1] == x[|x| - 1];
      CollapseHead(s);
      CollapseHead(x);
      CollapseConcat(x[1..], t);
      Seqs.ConcatAssoc([x[0]], Collapse(x[1..]), Collapse(t));
    } else {
      var s := x + t;
      assert s[0] == x[0];
      var a := TrimStart(x);
      assert |a| > 0 && a[|a| - 1] == x[|x| - 1];
      TrimStartConcat(x, t);
      CollapseSpaceHead(s);
      CollapseSpaceHead(x);
      CollapseConcat(a, t);
      Seqs.ConcatAssoc(" ", Collapse(a), Collapse(t));
    }
  }

  /** A run of whitespace between a visible character and a visible character
      becomes exactly one space: it neither vanishes nor survives as it was. */
  lemma CollapseGap(x: string, w: string, y: string)
    requires |x| == 0 || !IsSpace(x[|x| - 1])
    requires |w| > 0 && AllSpace(w)
    requires |y| > 0 && !IsSpace(y[0])
    ensures Collapse(x + w + y) == Collapse(x) + " " + Collapse(y)
  {
    Seqs.ConcatAssoc(x, w, y);
    CollapseConcat(x, w + y);
    assert (w + y)[0] == w[0];
    CollapseSpaceHead(w + y);
    TrimStartGap(w, y);
    Seqs.ConcatAssoc(Collapse(x), " ", Collapse(y));
  }

  /** Cutting a single-spaced string short leaves it single-spaced. */
  lemma {:induction false} PrefixSingleSpaced(r: string, c: string)
    requires r <= c && SingleSpaced(c)
    ensures SingleSpaced(r)
  {
    assert forall i :: 0 <= i < |r| ==> r[i] == c[i];
    forall i | 0 <= i < |r| ensures !DoubleSpaceAt(r, i) {
      assert !DoubleSpaceAt(c, i);
    }
  }

  /** `slice(0, n)`. */
  function Take(s: string, n: nat): (r: string)
    ensures r <= s
    ensures |r| == if |s| <= n then |s| else n
  {
    if |s| <= n then s else s[..n]
  }

  /** `toLowerCase` on one character, for the Basic Latin and Cyrillic capitals. */
  function LowerChar(c: char): (d: char)
    ensures 'A' <= c <= 'Z' ==> d as int == c as int + 32
    ensures '\U{0410}' <= c <= '\U{042F}' ==> d as int == c as int + 0x20
    ensures '\U{0400}' <= c <= '\U{040F}' ==> d as int == c as int + 0x50
    ensures !('A' <= c <= 'Z') && !('\U{0400}' <= c <= '\U{042F}') ==> d == c
  {
    if 'A' <= c <= 'Z' then (c as int + 32) as char
    else if '\U{0410}' <= c <= '\U{042F}' then (c as int + 0x20) as char
    else if '\U{0400}' <= c <= '\U{040F}' then (c as int + 0x50) as char
    else c
  }

  /** `toLowerCase`, character by character. */
  function Lower(s: string): (r: string)
    ensures |r| == |s|
    ensures forall i :: 0 <= i < |s| ==> r[i] == LowerChar(s[i])
  {
    seq(|s|, i requires 0 <= i < |s| => LowerChar(s[i]))
  }

  /** Lower-casing is idempotent: a lower-cased character is not a capital. */
  lemma LowerTwice(s: string)
    ensures Lower(Lower(s)) == Lower(s)
  {
    forall i | 0 <= i < |s| ensures LowerChar(LowerChar(s[i])) == LowerChar(s[i]) {
      var c := s[i];
      if 'A' <= c <= 'Z' {
        assert 'a' <= LowerChar(c) <= 'z';
      } else if '\U{0400}' <= c <= '\U{042F}' {
        assert '\U{0430}' <= LowerChar(c) <= '\U{045F}';
      }
    }
  }

  /** Lower-casing commutes with taking a slice. */
  lemma LowerSlice(s: string, i: int, j: int)
    requires 0 <= i <= j <= |s|
    ensures Lower(s)[i..j] == Lower(s[i..j])
  {
  }

  /** `needle` occurs in `hay` starting at offset `k`. */
  predicate OccursAt(hay: string, needle: string, k: int)
  {
    0 <= k <= |hay| - |needle| && hay[k..k + |needle|] == needle
  }

  /** An occurrence survives lower-casing both sides. */
  lemma LowerOccurs(hay: string, needle: string, k: int)
    requires OccursAt(hay, needle, k)
    ensures OccursAt(Lower(hay), Lower(needle), k)
  {
    LowerSlice(hay, k, k + |needle|);
  }

  /** Dropping the first character moves every occurrence one place left. */
  lemma OccursShift(hay: string, needle: string)
    requires |hay| > 0
    ensures forall k :: 0 <= k ==> (OccursAt(hay[1..], needle, k) <==> OccursAt(hay, needle, k + 1))
  {
    forall k | 0 <= k ensures OccursAt(hay[1..], needle, k) <==> OccursAt(hay, needle, k + 1) {
      if 0 <= k <= |hay| - 1 - |needle| {
        assert hay[1..][k..k + |needle|] == hay[k + 1..k + 1 + |needle|];
      }
    }
  }

  /** `hay.includes(needle)`: `needle` occurs in `hay` at some position. */
  function Contains(hay: string, needle: string): (r: bool)
    ensures r <==> exists k :: OccursAt(hay, needle, k)
    decreases |hay|
  {
    if |needle| > |hay| then false
    else if hay[..|needle|] == needle then
      assert OccursAt(hay, needle, 0);
      true
    else
      var r := Contains(hay[1..], needle);
      OccursShift(hay, needle);
      assert !OccursAt(hay, needle, 0);
      assert forall k :: OccursAt(hay, needle, k) ==> k == 0 || OccursAt(hay[1..], needle, k - 1);
      r
  }

  /** Splitting a string splits the non-whitespace characters the same way. */
  lemma {:induction false} NonSpaceConcat(a: string, b: string)
    ensures NonSpace(a + b) == NonSpace(a) + NonSpace(b)
  {
    if |a| > 0 {
      NonSpaceConcat(a[1..], b);
      var h := if IsSpace(a[0]) then "" else [a[0]];
      assert (a + b)[0] == a[0];
      assert (a + b)[1..] == a[1..] + b;
      assert NonSpace(a + b) == h + NonSpace(a[1..] + b);
      assert NonSpace(a) == h + NonSpace(a[1..]);
    } else {
      assert a + b == b;
    }
  }

  /** A prefix of a string carries a prefix of its non-whitespace characters. */
  lemma NonSpacePrefix(a: string, b: string)
    requires a <= b
    ensures NonSpace(a) <= NonSpace(b)
  {
    NonSpaceConcat(a, b[|a|..]);
    assert b == a + b[|a|..];
  }
}
